=== FILE: README.md ===
# rich-text-android: embed links, inline spans and the content view

A Dafny model of the sequential core of the rich-text-android library.
It covers three pieces:

- **The embed-link classifier** (`EmbedUtils`). It turns a link into a
  tweet id, a YouTube video id, a Gfycat id or a SoundCloud stream URL.
  Four recognisers are tried in a fixed order, and the first non-empty
  answer wins.
- **Two span payloads.**
  - `VideoPlayerSpan` reserves a 16:9 box as wide as its host view. It
    places an inline player there, created once, and forwards start/stop
    to it.
  - `UnsupportedContentSpan` carries only the URL of content that cannot
    be shown inline.
  - Both write themselves to a parcel as a type tag followed by one string.
- **The `RichContentView` controller.** This covers:
  - the layout cache (`setText`, `performLayout`, `onMeasure`);
  - the touch decision;
  - click dispatch to YouTube, URL and unsupported-content spans;
  - span notices on attach and detach;
  - the screen anchor of a span (`getSpanOrigin`).

Everything is an immutable datatype with pure functions, plus two
methods for the SoundCloud backward scan. Java `int` arithmetic is
written out in `JavaInt`:

- 32-bit wrap-around;
- the saturating `(int)` cast of a `double`;
- division that truncates toward zero.

Calls into platform code become parameters:

- `android.net.Uri.parse` is a function `Parser` from string to a URI
  record (authority, host, non-empty path segments, query map).
- `StaticLayout` is a `LayoutEngine` record of functions.
- The click observer is an optional predicate on spans.
- The view's position on screen is a `Point` argument.

What the view asks of the platform is returned as data instead:

- `Notice`s are the callbacks on spans;
- `Action`s are the activities and dialogs a click starts;
- `relayout` records a `requestLayout()` followed by `invalidate()`.

The YouTube regular expression (`pattern2`) is modelled twice:

- declaratively, as a predicate `MatchAt(s, j, g)`: a match starting
  at `j` whose group starts at `g`;
- executably, by a matcher that tries the alternatives in the
  regex engine's order.

The matcher is proved to return the group of a match at the leftmost
start position that has one. It returns none exactly when no match
exists.

Modules, one per file:

| module | contents |
|---|---|
| `Wrappers` | `Option`, `Result` |
| `JavaInt` | int32 wrap-around, saturating cast, truncating division |
| `TextUtils` | `indexOf`, `endsWith`, `TextUtils.isEmpty` / `isDigitsOnly` |
| `Uris` | the URI record, `getLastPathSegment`, `getQueryParameter` |
| `YouTubePattern` | the YouTube id pattern and its matcher |
| `EmbedUtils` | the recognisers and `parseLink` |
| `Graphics` | `Rect`, `Point` |
| `Views` | the host view as an identity |
| `Parcels` | a parcel as a sequence of typed slots |
| `VideoPlayerSpan` | the video span |
| `UnsupportedContentSpan` | the fallback span |
| `Documents` | a document, its spans, `getSpans(off, off, class)` |
| `RichContentView` | the view controller |

## Model

| member | source | states |
|---|---|---|
| TextUtils.IndexOf | richtextlib/src/main/java/io/square1/richtextlib/EmbedUtils.java:116 | `indexOf(t) >= 0` exactly when `t` occurs somewhere in the string, and a non-negative result is the position of the first occurrence |
| TextUtils.EndsWith | richtextlib/src/main/java/io/square1/richtextlib/EmbedUtils.java:137 | `endsWith` holds exactly when the string is some prefix followed by the suffix |
| TextUtils.IsDigitsOnly | richtextlib/src/main/java/io/square1/richtextlib/EmbedUtils.java:121-122 | `isDigitsOnly` holds exactly when every character is a digit (vacuously for "") |
| Uris.LastPathSegment | richtextlib/src/main/java/io/square1/richtextlib/EmbedUtils.java:120 | null exactly for a URI without path segments; otherwise the final segment, which is non-empty |
| Uris.QueryParameter | richtextlib/src/main/java/io/square1/richtextlib/EmbedUtils.java:85 | the value of a present key; "" (the null of `TextUtils.isEmpty`) for an absent one |
| YouTubePattern.TryAt | richtextlib/src/main/java/io/square1/richtextlib/EmbedUtils.java:181 | trying the pattern at one start position succeeds only with a group the declarative pattern admits there, and fails only when no group is admitted there |
| YouTubePattern.LastSlashBeforeId | richtextlib/src/main/java/io/square1/richtextlib/EmbedUtils.java:181 | the greedy `\S+/` before the id backs off to the last `/` in the word that is followed by an 11-character id, or finds none when no such `/` exists |
| YouTubePattern.FindFrom | richtextlib/src/main/java/io/square1/richtextlib/EmbedUtils.java:185-187 | `find` from a position returns the group of a match at the leftmost start that has one, or nothing when no later start matches |
| YouTubePattern.Find | richtextlib/src/main/java/io/square1/richtextlib/EmbedUtils.java:184-188 | the found group starts 11 id characters and belongs to a match at the leftmost start position that has one; nothing is found exactly when the input contains no match |
| EmbedUtils.GetTweetId | richtextlib/src/main/java/io/square1/richtextlib/EmbedUtils.java:107-127 | an id is returned exactly when the input is non-empty, contains "twitter" or "t.co" anywhere, and its last path segment is all digits; the id is that segment |
| EmbedUtils.GetYoutubeVideoId | richtextlib/src/main/java/io/square1/richtextlib/EmbedUtils.java:177-192 | a returned id is 11 characters from `[A-Za-z0-9_-]` cut from a case-insensitive match of the pattern at the leftmost start position that has one; null exactly when the input has no match |
| EmbedUtils.GetYoutubeThumbnailUrl | richtextlib/src/main/java/io/square1/richtextlib/EmbedUtils.java:195-197 | the thumbnail URL has the `http://img.youtube.com/vi/…/hqdefault.jpg` shape, and taking it apart gives back the video id |
| EmbedUtils.ThumbnailUrlOfItsId | richtextlib/src/main/java/io/square1/richtextlib/EmbedUtils.java:195-197 | every URL of the thumbnail shape is the thumbnail URL of the id it encloses |
| EmbedUtils.GetGfycatId | richtextlib/src/main/java/io/square1/richtextlib/EmbedUtils.java:130-148 | an id is returned exactly when the host ends with "gfycat.com" and the path has one or two segments: segment 0 of one, segment 1 of two |
| EmbedUtils.FirstDigitSegment | richtextlib/src/main/java/io/square1/richtextlib/EmbedUtils.java:97-104 | the forward scan yields the first all-digit segment, every earlier one failing the test, or "" exactly when no segment is all digits |
| EmbedUtils.ParseSoundCloud | richtextlib/src/main/java/io/square1/richtextlib/EmbedUtils.java:72-105 | null exactly for an empty authority or an empty track URL; the track URL is the link on an api.soundcloud authority, and its `url` parameter on another soundcloud authority; the result is the first all-digit segment of the track URL, or "" |
| EmbedUtils.GetSoundCloudStreamFromTrackId | richtextlib/src/main/java/io/square1/richtextlib/EmbedUtils.java:167-175 | null exactly for an empty id; otherwise a string of the shape `https://api.soundcloud.com/tracks/<id>/stream?consumer_key=<client>` from which the id is recovered |
| EmbedUtils.StreamUrlOfItsTrackId | richtextlib/src/main/java/io/square1/richtextlib/EmbedUtils.java:170-172 | every stream-shaped URL with a non-empty id is the stream URL of that id |
| EmbedUtils.StreamUrlOfTrack196567484 | richtextlib/src/main/java/io/square1/richtextlib/EmbedUtils.java:171 | track 196567484 gives `https://api.soundcloud.com/tracks/196567484/stream?consumer_key=` followed by the client id |
| EmbedUtils.LastDigitSegment | richtextlib/src/main/java/io/square1/richtextlib/EmbedUtils.java:154-161 | the loop from the end of the path returns what the recursive reference definition of "the last all-digit segment" gives |
| EmbedUtils.LastAllDigitsSpec | richtextlib/src/main/java/io/square1/richtextlib/EmbedUtils.java:154-161 | the last all-digit segment is null exactly when no segment is all digits; otherwise it is the segment at some position that is all digits and after which no segment is all digits |
| EmbedUtils.ForwardAndBackwardScans | richtextlib/src/main/java/io/square1/richtextlib/EmbedUtils.java:155-161 | with two different all-digit segments, the forward scan of `parseSoundCloud` picks the first and the backward scan of `getSoundCloudStream` picks the last |
| EmbedUtils.ScansAgreeOnOneDigitSegment | richtextlib/src/main/java/io/square1/richtextlib/EmbedUtils.java:97-161 | with exactly one all-digit segment, both scans find that segment |
| EmbedUtils.GetSoundCloudStream | richtextlib/src/main/java/io/square1/richtextlib/EmbedUtils.java:150-165 | null exactly when no path segment is all digits; otherwise the stream URL of the last all-digit segment |
| EmbedUtils.ParseLink | richtextlib/src/main/java/io/square1/richtextlib/EmbedUtils.java:31-64 | a reported result is non-empty and never "unsupported"; a tweet id is all digits, a YouTube id has 11 characters, and a SoundCloud result is the stream URL of an all-digit track id |
| EmbedUtils.ParseLinkFirstRecogniserWins | richtextlib/src/main/java/io/square1/richtextlib/EmbedUtils.java:35-61 | Twitter is tried before YouTube, YouTube before Gfycat, and Gfycat before SoundCloud; the first recogniser that accepts decides kind and result, and a link none accepts is not reported |
| EmbedUtils.GfycatDigitLinkIsReportedAsTweet | richtextlib/src/main/java/io/square1/richtextlib/EmbedUtils.java:35-51 | a link containing "gfycat.com" whose last segment is all digits is reported as a tweet, because "gfycat.com" contains "t.co" |
| EmbedUtils.TwitterStatusLink | richtextlib/src/main/java/io/square1/richtextlib/EmbedUtils.java:107-127 | `https://twitter.com/user/status/123456` is a tweet with id 123456 |
| EmbedUtils.UnmentionedRelativeLinkIsNotClassified | richtextlib/src/main/java/io/square1/richtextlib/EmbedUtils.java:35-61 | a link that mentions neither "twitter" nor "t.co", has no YouTube match, and parses without authority or host is not reported by any recogniser |
| EmbedUtils.PlainTextIsNotClassified | richtextlib/src/main/java/io/square1/richtextlib/EmbedUtils.java:35-61 | the text "not a url", parsed without authority or host (whatever its path segments), is not reported by any recogniser |
| EmbedUtils.RelativeTcoLinkIsTweet | richtextlib/src/main/java/io/square1/richtextlib/EmbedUtils.java:107-127 | a missing authority or host does not stop the Twitter test: `t.co/5` parsed as the relative path `t.co`, `5` is the tweet 5 |
| EmbedUtils.SoundCloudPageWithTrackParameter | richtextlib/src/main/java/io/square1/richtextlib/EmbedUtils.java:82-100 | a soundcloud.com page whose `url` parameter names `/tracks/196567484` yields track 196567484 and its stream URL |
| Parcels.WriteType | richtextlib/src/main/java/io/square1/richtextlib/spans/VideoPlayerSpan.java:104 | writing the type tag appends one tag slot and keeps what was written before |
| Parcels.WriteString | richtextlib/src/main/java/io/square1/richtextlib/spans/VideoPlayerSpan.java:105 | writing a string, null included, appends one string slot and keeps what was written before |
| Parcels.ReadString | richtextlib/src/main/java/io/square1/richtextlib/spans/UnsupportedContentSpan.java:67 | reading a string slot yields its value and advances the cursor by one; past the end it yields null |
| Parcels.ReadType | richtextlib/src/main/java/io/square1/richtextlib/spans/VideoPlayerSpan.java:104 | a type tag is read exactly from a tag slot |
| VideoPlayerSpan.Empty | richtextlib/src/main/java/io/square1/richtextlib/spans/VideoPlayerSpan.java:41-43 | a new span has no URI, no host view and no player |
| VideoPlayerSpan.New | richtextlib/src/main/java/io/square1/richtextlib/spans/VideoPlayerSpan.java:45-51 | the URL constructor stores the URI and ignores the maximum width |
| VideoPlayerSpan.GetBitmapSize | richtextlib/src/main/java/io/square1/richtextlib/spans/VideoPlayerSpan.java:55-65 | the box is `(0, 0, w, h)` with `w` the measured width less the right padding twice, in wrapping `int` arithmetic, and `h = w*9/16` rounded toward zero |
| VideoPlayerSpan.NineSixteenths | richtextlib/src/main/java/io/square1/richtextlib/spans/VideoPlayerSpan.java:62-64 | for every `int` width, the `double` computation `(int)(w / 16 * 9)` equals integer `w*9/16` rounded toward zero |
| VideoPlayerSpan.GetSize | richtextlib/src/main/java/io/square1/richtextlib/spans/VideoPlayerSpan.java:110-128 | the advance is the box width; given metrics get `ascent = top = -height` and `descent = bottom = 0`, with leading kept; absent metrics stay absent |
| VideoPlayerSpan.ReservedHeightIsBoxHeight | richtextlib/src/main/java/io/square1/richtextlib/spans/VideoPlayerSpan.java:117-122 | the line height the metrics reserve equals the box height |
| VideoPlayerSpan.PrepareVideoView | richtextlib/src/main/java/io/square1/richtextlib/spans/VideoPlayerSpan.java:162-172 | a player is created and added exactly when none exists; an existing one keeps its data and playing state; the player is placed at the drawn x and offset, as wide and as high as the box; nothing else in the span changes |
| VideoPlayerSpan.Draw | richtextlib/src/main/java/io/square1/richtextlib/spans/VideoPlayerSpan.java:140-158 | the draw arguments are recorded; the vertical offset is the line bottom less the box height less the paint's descent; a player is added exactly when there was none |
| VideoPlayerSpan.WrapTwice | richtextlib/src/main/java/io/square1/richtextlib/spans/VideoPlayerSpan.java:153-154 | subtracting in two wrapping steps equals one wrapping subtraction |
| VideoPlayerSpan.DrawCreatesPlayerOnce | richtextlib/src/main/java/io/square1/richtextlib/spans/VideoPlayerSpan.java:165-171 | a second draw adds no player, keeps the first player's data and only moves it |
| VideoPlayerSpan.Start | richtextlib/src/main/java/io/square1/richtextlib/spans/VideoPlayerSpan.java:174-181 | with no player nothing changes; otherwise the same player, data and layout kept, is set playing, and nothing else changes |
| VideoPlayerSpan.Stop | richtextlib/src/main/java/io/square1/richtextlib/spans/VideoPlayerSpan.java:183-188 | afterwards nothing is running; with no player nothing changes; otherwise the same player, data and layout kept, is set paused, and nothing else changes |
| VideoPlayerSpan.IsRunning | richtextlib/src/main/java/io/square1/richtextlib/spans/VideoPlayerSpan.java:190-196 | false without a player; otherwise whether the player is playing |
| VideoPlayerSpan.StartStopKeepPlayer | richtextlib/src/main/java/io/square1/richtextlib/spans/VideoPlayerSpan.java:174-196 | start and stop neither create nor drop a player; start then stop leaves it paused; without a player `isRunning` stays false after start |
| VideoPlayerSpan.OnSpannedSetToView | richtextlib/src/main/java/io/square1/richtextlib/spans/VideoPlayerSpan.java:81-84 | the span remembers the view, and nothing else changes |
| VideoPlayerSpan.OnAttachedToView | richtextlib/src/main/java/io/square1/richtextlib/spans/VideoPlayerSpan.java:86-90 | attaching leaves the span unchanged |
| VideoPlayerSpan.OnDetachedFromView | richtextlib/src/main/java/io/square1/richtextlib/spans/VideoPlayerSpan.java:92-95 | detaching leaves the span unchanged |
| VideoPlayerSpan.WriteToParcel | richtextlib/src/main/java/io/square1/richtextlib/spans/VideoPlayerSpan.java:102-107 | appends the type tag and then the URI string; fails exactly when the span has no URI |
| VideoPlayerSpan.ReadFromParcel | richtextlib/src/main/java/io/square1/richtextlib/spans/VideoPlayerSpan.java:73-77 | the read succeeds exactly when the next slot holds a non-null string; it then sets the URI to that string, advances past that slot and changes nothing else; a null string fails and a failed string read is passed on |
| VideoPlayerSpan.ParcelRoundTrip | richtextlib/src/main/java/io/square1/richtextlib/spans/VideoPlayerSpan.java:73-107 | after a write, the type tag reads back and then `readFromParcel` restores the URI, consuming exactly what was written |
| UnsupportedContentSpan.Empty | richtextlib/src/main/java/io/square1/richtextlib/spans/UnsupportedContentSpan.java:32 | a new span has a null URL |
| UnsupportedContentSpan.FromUrl | richtextlib/src/main/java/io/square1/richtextlib/spans/UnsupportedContentSpan.java:34-36 | `getURL` returns the URL the constructor was given |
| UnsupportedContentSpan.FromParcel | richtextlib/src/main/java/io/square1/richtextlib/spans/UnsupportedContentSpan.java:38-40 | the parcel constructor's URL is the next string of the parcel |
| UnsupportedContentSpan.GetUrl | richtextlib/src/main/java/io/square1/richtextlib/spans/UnsupportedContentSpan.java:52-54 | the stored URL, null exactly for a span built without one |
| UnsupportedContentSpan.GetType | richtextlib/src/main/java/io/square1/richtextlib/spans/UnsupportedContentSpan.java:22-28 | always the class's own tag, distinct from the video span's |
| UnsupportedContentSpan.DescribeContents | richtextlib/src/main/java/io/square1/richtextlib/spans/UnsupportedContentSpan.java:43-45 | always 0 |
| UnsupportedContentSpan.WriteToParcel | richtextlib/src/main/java/io/square1/richtextlib/spans/UnsupportedContentSpan.java:47-50 | appends exactly the type tag and then the URL as one string slot, null included |
| UnsupportedContentSpan.ReadFromParcel | richtextlib/src/main/java/io/square1/richtextlib/spans/UnsupportedContentSpan.java:65-68 | succeeds exactly when the next slot is a string or the parcel is exhausted; the URL becomes that string, null included |
| UnsupportedContentSpan.ParcelRoundTrip | richtextlib/src/main/java/io/square1/richtextlib/spans/UnsupportedContentSpan.java:38-68 | after a write, the tag reads back, and both `readFromParcel` and the parcel constructor restore the span, null URL included |
| UnsupportedContentSpan.OnAttachedToView | richtextlib/src/main/java/io/square1/richtextlib/spans/UnsupportedContentSpan.java:70-73 | the span is unchanged |
| UnsupportedContentSpan.OnDetachedFromView | richtextlib/src/main/java/io/square1/richtextlib/spans/UnsupportedContentSpan.java:75-78 | the span is unchanged |
| UnsupportedContentSpan.OnSpannedSetToView | richtextlib/src/main/java/io/square1/richtextlib/spans/UnsupportedContentSpan.java:80-83 | the span is unchanged |
| Documents.SpansAt | richtext/src/main/java/io/square1/richtextlib/ui/RichContentView.java:246 | `getSpans(off, off, class)` returns exactly the spans whose range contains the offset and that are of the class |
| Documents.SpansAtAppend | richtext/src/main/java/io/square1/richtextlib/ui/RichContentView.java:246 | the spans found in two consecutive runs of the text are those of the first run followed by those of the second: results keep document order |
| Documents.SpansAtMissed | richtext/src/main/java/io/square1/richtextlib/ui/RichContentView.java:246 | a run in which no span covers the offset contributes no span |
| Documents.SpansAtSingle | richtext/src/main/java/io/square1/richtextlib/ui/RichContentView.java:257 | one span is found exactly when it covers the offset and is of the class |
| RichContentView.Init | richtext/src/main/java/io/square1/richtextlib/ui/RichContentView.java:157-173 | a new view shows an empty document with no layout, last width 0, not attached, and satisfies the cache invariant |
| RichContentView.SetText | richtext/src/main/java/io/square1/richtextlib/ui/RichContentView.java:108-121 | the same document object changes nothing; a different one replaces the text, drops the layout, asks for a new pass and notifies each span once, in order; the cache invariant is kept |
| RichContentView.PerformLayout | richtext/src/main/java/io/square1/richtextlib/ui/RichContentView.java:125-132 | the layout is dropped; a new pass is asked for exactly when one was present |
| RichContentView.MeasureSpecSize | richtext/src/main/java/io/square1/richtextlib/ui/RichContentView.java:179 | the size of a measure spec is its low 30 bits |
| RichContentView.OnMeasure | richtext/src/main/java/io/square1/richtextlib/ui/RichContentView.java:175-197 | a layout is built exactly when there is none or the width changed, for the current document at the width less both horizontal paddings; otherwise the state is unchanged; the measured size is the spec width by the vertical paddings plus the layout height; the cache invariant is kept |
| RichContentView.MeasureAgainKeepsLayout | richtext/src/main/java/io/square1/richtextlib/ui/RichContentView.java:182-190 | measuring again at the same width builds nothing and reports the same size |
| RichContentView.SetTextThenMeasureLaysOutNewText | richtext/src/main/java/io/square1/richtextlib/ui/RichContentView.java:108-185 | after a new document is set, the next measure builds one layout, and it is for that document |
| RichContentView.ActionFor | richtext/src/main/java/io/square1/richtextlib/ui/RichContentView.java:318-346 | a span the observer claims starts nothing; otherwise a YouTube span opens the watch URL of its id, else a URL span opens its URL, else an unsupported-content span shows the fallback dialog with its URL, and any other span starts nothing |
| RichContentView.Dispatch | richtext/src/main/java/io/square1/richtextlib/ui/RichContentView.java:316-347 | no more actions than spans, and every action is the action of one of the spans |
| RichContentView.DispatchSingle | richtext/src/main/java/io/square1/richtextlib/ui/RichContentView.java:316-347 | clicking one span starts exactly the action chosen for it, and at most one |
| RichContentView.OnSpansClicked | richtext/src/main/java/io/square1/richtextlib/ui/RichContentView.java:312-349 | a null array starts nothing; otherwise the spans are handled one by one in array order, as `Dispatch` (with `DispatchSingle` and `DispatchAppend`) describes: no more actions than spans, each the action of one of the spans |
| RichContentView.DispatchAppend | richtext/src/main/java/io/square1/richtextlib/ui/RichContentView.java:316-347 | spans are handled one after the other: clicking two groups in one array equals clicking them in turn |
| RichContentView.ClaimedSpansAreSkipped | richtext/src/main/java/io/square1/richtextlib/ui/RichContentView.java:319-321 | spans the observer claims start nothing |
| RichContentView.YouTubeWinsOverUrl | richtext/src/main/java/io/square1/richtextlib/ui/RichContentView.java:323-331 | a span that is both a YouTube and a URL span opens `http://www.youtube.com/watch?v=` plus its id |
| RichContentView.UrlWinsOverUnsupported | richtext/src/main/java/io/square1/richtextlib/ui/RichContentView.java:332-346 | an unclaimed URL span that is also an unsupported-content span, and no YouTube span, opens its URL and shows no fallback |
| RichContentView.ContentPoint | richtext/src/main/java/io/square1/richtextlib/ui/RichContentView.java:235-240 | the touched point in content coordinates is the cast event position less the padding plus the scroll, when nothing overflows |
| RichContentView.OnTouchEvent | richtext/src/main/java/io/square1/richtextlib/ui/RichContentView.java:225-267 | the event goes to the superclass exactly when there is no layout or it is neither UP nor DOWN; otherwise it is declined exactly when an animatable span covers the touched offset; DOWN starts nothing; an accepted UP clicks exactly the clickable spans at the offset, in document order |
| RichContentView.TouchOnVideoPlayerIsDeclined | richtext/src/main/java/io/square1/richtextlib/ui/RichContentView.java:246-255 | releasing over a video span returns false and starts nothing, so the start/stop toggle never runs |
| RichContentView.ReleaseOverOneLinkClicksIt | richtext/src/main/java/io/square1/richtextlib/ui/RichContentView.java:257-263 | releasing where the only clickable span is one span and no animatable span lies clicks that span and returns true |
| RichContentView.ReleaseOverUrlOpensIt | richtext/src/main/java/io/square1/richtextlib/ui/RichContentView.java:246-263 | releasing over a URL span that no other span covers opens its URL and returns true |
| RichContentView.OnAttachedToWindow | richtext/src/main/java/io/square1/richtextlib/ui/RichContentView.java:282-292 | the view is marked attached, each span is notified once, in order, and nothing else changes |
| RichContentView.OnDetachedFromWindow | richtext/src/main/java/io/square1/richtextlib/ui/RichContentView.java:294-301 | the view is marked detached, each span is notified once, in order, and nothing else changes |
| RichContentView.AttachThenDetachRestores | richtext/src/main/java/io/square1/richtextlib/ui/RichContentView.java:276-301 | `viewAttachedToWindow` is true after attaching; attaching then detaching restores the view, marked detached |
| RichContentView.AttachedFlagFollowsCallbacks | richtext/src/main/java/io/square1/richtextlib/ui/RichContentView.java:276-279 | `viewAttachedToWindow` is false for a new view and after detaching, true after attaching, and unchanged by setting text or measuring |
| RichContentView.SpanStart | richtext/src/main/java/io/square1/richtextlib/ui/RichContentView.java:500 | the span's start where the text holds it, -1 where it does not; in a well-formed text -1 means exactly that |
| RichContentView.SpanEnd | richtext/src/main/java/io/square1/richtextlib/ui/RichContentView.java:501 | the span's end where the text holds it, -1 where it does not; in a well-formed text -1 means exactly that |
| RichContentView.SpanOffsetsInText | richtext/src/main/java/io/square1/richtextlib/ui/RichContentView.java:500-501 | in a well-formed text, a span's start and end are ordered offsets inside the text |
| RichContentView.GetSpanOrigin | richtext/src/main/java/io/square1/richtextlib/ui/RichContentView.java:495-545 | no origin without a layout; y is the bottom of the span's first line moved to screen coordinates; x is the left edge for a span spanning lines; otherwise, when the sum of the edges does not overflow, x is their midpoint rounded toward zero, within one half of the exact midpoint and between the edges |
| RichContentView.MidpointBetween | richtext/src/main/java/io/square1/richtextlib/ui/RichContentView.java:538 | Java's `(left + right) / 2` is the midpoint rounded toward zero, within one half of the exact midpoint and between the two edges, when the sum does not overflow |

## Left out

- `Uri.parse` is a parameter. Its parsing rules, including the exception
  `getQueryParameter` throws on opaque URIs (caught at
  `EmbedUtils.java:86`), are the platform's and are not modelled. A null
  authority, host or query value is merged with "", because the code only
  tests them with `TextUtils.isEmpty`.
- `YouTubePattern.Find`: the contract states that the group belongs to
  a match at the leftmost start position that has one. Where several
  groups match at that start, it does not say which one is returned. An example is
  `youtube.com/a/b/XXXXXXXXXXX/YYYYYYYYYYY`, where Java's greedy `\S+/`
  takes the last `/` that still leaves a match. The matcher tries the
  alternatives in the pattern's order. Within the first alternative,
  `YouTubePattern.LastSlashBeforeId` is proved to take that last `/`.
  The order between alternatives is not stated.
- `Uris.QueryParameter`: a missing parameter gives "" rather than null,
  for the same reason.
- `TextUtils.IsDigitsOnly`: only ASCII `0`–`9` count as digits. Java's
  `Character.isDigit` also accepts other Unicode decimal digits.
- `EmbedUtils.GetYoutubeVideoId`: the unused first pattern is not
  modelled. The second pattern is modelled for its alternatives, its case
  folding (ASCII only) and `\s` as Java's ASCII whitespace. The rest of
  `java.util.regex` is not.
- The `parseLink` callback is not modelled. `ParseLink` returns the
  arguments it would be called with, or none for `false`.
- `VideoPlayerSpan.GetBitmapSize`, `GetSize`, `PrepareVideoView` and
  `Draw` require a host view. The source dereferences the weak reference
  without a test and would stop with a NullPointerException; weak
  references and garbage collection are not modelled.
- `VideoPlayerSpan.Draw`: the float `x` is taken as the integer that
  `prepareVideoView` casts it to. Canvas, paint and text arguments are
  not modelled, except the paint's descent.
- `RichVideoView` is reduced to its data URI, layout parameters and a
  playing flag. Playback, `addSubView` and `getContext` are not modelled.
- `DynamicParcelableCreator` and the `UniqueId` registry are not
  modelled: a type tag is one of two distinct constants. `writeToParcel`
  flags are ignored. `Uri.toString` of a parsed URI is taken to give back
  the string it was parsed from.
- `VideoPlayerSpan.GetType` and `DescribeContents` have no contract: they
  return the constant tag and 0.
- `RichContentView.SetText`, `OnAttachedToWindow` and
  `OnDetachedFromWindow` notify every span of the model's document. The
  source notifies only the `RichTextSpan`s that `getSpans` returns
  (`RichContentView.java:111`, `288`, `298`). The model's document is
  taken to hold only the library's own spans, so foreign span classes
  are not modelled.
- Spans are described by the classes the view tests: YouTube, URL,
  unsupported content, clickable, animatable. A YouTube id or URL that is
  null is not modelled; the source would concatenate "null" or fail in
  `Uri.parse`. `RichTextDocumentElement.getSpans` is not part of this
  model beyond the range-and-class filter `Documents.SpansAt`. The order
  of its results is taken to be document order.
- `RichContentView.OnSpansClicked` returns `Action` values. Intents,
  `Toast` (shown when `startActivity` throws for a URL span),
  `FallbackWebDialog` and `UnsupportedContentSpan.onClick` are platform
  calls and are not modelled.
- `StaticLayout` construction, line breaking, `onDraw` and
  `makeLayout`'s text appearance are not modelled. The layout is an
  identity plus the `LayoutEngine` functions.
  `getPrimaryHorizontal` returns an integer here, while the source
  returns a float.
- `RichContentView.OnMeasure`: the height spec and the `super.onMeasure`
  branch are not modelled. That branch is dead, because a layout always
  exists after the rebuild.
- `RichContentView.ContentPoint`: the event coordinates are reals cast as
  Java casts a float. Float rounding of the event itself is not modelled.
- `RichContentView.GetSpanOrigin`: `getLocationOnScreen` is an argument.
- Not modelled, as styled-attribute, asset and font I/O:
  - `parseCustomAttributes`, `setFontFamily`, `getTypeFace`;
  - `Appearance` and its spacing multipliers;
  - the constructors' context arguments.
- `generateDefaultLayoutParams` is modelled inline in
  `VideoPlayerSpan.PrepareVideoView`, as the `LayoutParams` record (width,
  height, left margin x, top margin y). `addSubView`,
  `setUrlBitmapDownloader`, `getDownloader`, `setRichTextContentChanged`
  and `setOnSpanClickedObserver` are view plumbing and are not modelled. The
  observer is passed to each click.

=== FILE: documents.dfy ===
/** The document a `RichContentView` shows: a text of some length and the
    spans placed on it, in document order. Spans are described by what
    the view's `instanceof` tests and `getSpans` class filters see. */
module Documents {
  import opened Wrappers
  import UnsupportedContentSpan

  /** A span as the view classifies it:
      `youTubeId` — a `YouTubeSpan`, with its id;
      `url` — a `URLSpan`, with its URL;
      `unsupported` — an `UnsupportedContentSpan`;
      `clickable` / `animatable` — implements `ClickableSpan` / `Animatable`. */
  datatype SpanKind = SpanKind(
    youTubeId: Option<string>,
    url: Option<string>,
    unsupported: Option<UnsupportedContentSpan.UnsupportedSpan>,
    clickable: bool,
    animatable: bool)

  /** A span object attached to the text over `[start, end]`. */
  datatype Placed = Placed(kind: SpanKind, start: int, end: int)

  /** A `RichTextDocumentElement`: `id` is its object identity. */
  datatype Document = Document(id: nat, length: nat, spans: seq<Placed>)

  /** The class filters `RichContentView` passes to `getSpans`. */
  datatype Filter = AnimatableSpans | ClickableSpans

  /** How a `VideoPlayerSpan` is seen: clickable and animatable. */
  const VIDEO_PLAYER_KIND: SpanKind := SpanKind(None, None, None, true, true)

  /** How an `UnsupportedContentSpan` is seen: clickable only. */
  function UnsupportedKind(span: UnsupportedContentSpan.UnsupportedSpan): SpanKind {
    SpanKind(None, None, Some(span), true, false)
  }

  predicate Implements(kind: SpanKind, filter: Filter) {
    match filter
    case AnimatableSpans => kind.animatable
    case ClickableSpans => kind.clickable
  }

  /** Every span lies inside the text, its start no later than its end. */
  predicate WellFormed(doc: Document) {
    forall i :: 0 <= i < |doc.spans| ==> 0 <= doc.spans[i].start <= doc.spans[i].end <= doc.length
  }

  /** A zero-length query at `offset` hits every span whose closed range
      contains it, endpoints included. */
  predicate Covers(span: Placed, offset: int) {
    span.start <= offset <= span.end
  }

  /** `getSpans(offset, offset, filter)`: the spans covering `offset` that
      pass the filter, in document order. */
  function SpansAt(spans: seq<Placed>, offset: int, filter: Filter): (r: seq<Placed>)
    ensures forall x :: x in r <==> x in spans && Covers(x, offset) && Implements(x.kind, filter)
    ensures |r| <= |spans|
  {
    if spans == [] then []
    else
      var rest := SpansAt(spans[1..], offset, filter);
      assert forall x :: x in spans <==> x == spans[0] || x in spans[1..];
      if Covers(spans[0], offset) && Implements(spans[0].kind, filter) then [spans[0]] + rest else rest
  }

  /** The query keeps document order: querying two runs of spans one after
      the other gives the results for the first run, then the second. */
  lemma {:induction false} SpansAtAppend(a: seq<Placed>, b: seq<Placed>, offset: int, filter: Filter)
    ensures SpansAt(a + b, offset, filter) == SpansAt(a, offset, filter) + SpansAt(b, offset, filter)
  {
    if a == [] {
      assert a + b == b;
    } else {
      var c := a + b;
      assert c[0] == a[0] && c[1..] == a[1..] + b;
      SpansAtAppend(a[1..], b, offset, filter);
    }
  }

  /** Spans that all miss the offset give an empty query result. */
  lemma {:induction false} SpansAtMissed(spans: seq<Placed>, offset: int, filter: Filter)
    requires forall i :: 0 <= i < |spans| ==> !Covers(spans[i], offset)
    ensures SpansAt(spans, offset, filter) == []
  {
    if spans != [] {
      SpansAtMissed(spans[1..], offset, filter);
    }
  }

  /** A single span is kept exactly when it covers the offset and passes the filter. */
  lemma SpansAtSingle(s: Placed, offset: int, filter: Filter)
    ensures SpansAt([s], offset, filter) == if Covers(s, offset) && Implements(s.kind, filter) then [s] else []
  {
    assert [s][1..] == [];
  }
}

=== FILE: embed_utils.dfy ===
/** `EmbedUtils`: classifies a link as a tweet, a YouTube video, a Gfycat
    clip or a SoundCloud track, trying the four recognisers in that fixed
    order, and composes SoundCloud stream and YouTube thumbnail URLs. */
module EmbedUtils {
  import opened Wrappers
  import opened TextUtils
  import opened Uris
  import YouTubePattern

  const SOUND_CLOUD_CLIENT_ID: string := "1f6456941b1176c22d44fb16ec2015a2"

  const STREAM_PREFIX: string := "https://api.soundcloud.com/tracks/"
  const STREAM_INFIX: string := "/stream?consumer_key="
  const THUMBNAIL_PREFIX: string := "http://img.youtube.com/vi/"
  const THUMBNAIL_SUFFIX: string := "/hqdefault.jpg"

  datatype EmbedType = EYoutube | EGfycat | ESoundCloud | ETwitter | EUnsupported

  /** The arguments `parseLink` hands to its callback. */
  datatype Embed = Embed(result: string, kind: EmbedType)

  /** A recogniser's answer counts when it is neither null nor "". */
  predicate Present(r: Option<string>) {
    r.Some? && r.value != ""
  }

  // ---------------------------------------------------------------------
  // String.format with one argument between a fixed prefix and suffix

  function Enclose(prefix: string, x: string, suffix: string): string {
    prefix + x + suffix
  }

  /** Recovers the argument from a formatted string, if it has the shape. */
  function Unenclose(prefix: string, s: string, suffix: string): (r: Option<string>)
    ensures r.Some? ==> Enclose(prefix, r.value, suffix) == s
  {
    if |prefix| + |suffix| <= |s| && s[..|prefix|] == prefix && s[|s| - |suffix|..] == suffix then
      var x := s[|prefix|..|s| - |suffix|];
      assert prefix + x + suffix == s;
      Some(x)
    else
      None
  }

  lemma {:induction false} UnencloseEnclose(prefix: string, x: string, suffix: string)
    ensures Unenclose(prefix, Enclose(prefix, x, suffix), suffix) == Some(x)
  {
    var s := prefix + x + suffix;
    assert s[..|prefix|] == prefix;
    assert s[|s| - |suffix|..] == suffix;
    assert s[|prefix|..|s| - |suffix|] == x;
  }

  // ---------------------------------------------------------------------
  // Twitter

  ghost predicate MentionsTwitter(s: string) {
    Contains(s, "twitter") || Contains(s, "t.co")
  }

  /** `getTweetId`: the last path segment of a link that mentions twitter
      or t.co anywhere, provided that segment is all digits. */
  function GetTweetId(input: string, parse: Parser): (r: Option<string>)
    ensures r.Some? <==>
      && input != []
      && MentionsTwitter(input)
      && LastPathSegment(parse(input)).Some?
      && AllDigits(LastPathSegment(parse(input)).value)
    ensures r.Some? ==> r.value == LastPathSegment(parse(input)).value && r.value != ""
  {
    if IsEmpty(input) then None
    else if IndexOf(input, "twitter") >= 0 || IndexOf(input, "t.co") >= 0 then
      var lastPath := LastPathSegment(parse(input));
      if lastPath.Some? && !IsEmpty(lastPath.value) && IsDigitsOnly(lastPath.value) then
        Some(lastPath.value)
      else
        None
    else
      None
  }

  // ---------------------------------------------------------------------
  // YouTube

  /** `getYoutubeVideoId`: group 1 of the first match of the pattern. */
  function GetYoutubeVideoId(input: string): (r: Option<string>)
    ensures r.Some? ==> |r.value| == YouTubePattern.ID_LENGTH
    ensures r.Some? ==> forall i :: 0 <= i < |r.value| ==> YouTubePattern.IsIdChar(r.value[i])
    ensures r.Some? ==> exists j: nat, g: nat :: YouTubePattern.MatchAt(input, j, g) && input[g..g + YouTubePattern.ID_LENGTH] == r.value
    ensures r.None? <==> !YouTubePattern.HasMatch(input)
    ensures r.Some? ==> exists k: nat, g: nat :: YouTubePattern.LeftmostFrom(input, 0, k, g)
                                                && input[g..g + YouTubePattern.ID_LENGTH] == r.value
  {
    match YouTubePattern.Find(input)
    case Some(g) => Some(input[g..g + YouTubePattern.ID_LENGTH])
    case None => None
  }

  /** `getYoutubeThumbnailUrl`. */
  function GetYoutubeThumbnailUrl(videoId: string): (r: string)
    ensures Unenclose(THUMBNAIL_PREFIX, r, THUMBNAIL_SUFFIX) == Some(videoId)
  {
    UnencloseEnclose(THUMBNAIL_PREFIX, videoId, THUMBNAIL_SUFFIX);
    Enclose(THUMBNAIL_PREFIX, videoId, THUMBNAIL_SUFFIX)
  }

  /** Every string of the thumbnail shape is the thumbnail of its id. */
  lemma ThumbnailUrlOfItsId(url: string)
    requires Unenclose(THUMBNAIL_PREFIX, url, THUMBNAIL_SUFFIX).Some?
    ensures GetYoutubeThumbnailUrl(Unenclose(THUMBNAIL_PREFIX, url, THUMBNAIL_SUFFIX).value) == url
  {
  }

  // ---------------------------------------------------------------------
  // Gfycat

  ghost predicate IsGfycatUri(u: Uri) {
    (exists sub :: sub + "gfycat.com" == u.host) && 1 <= |u.pathSegments| <= 2
  }

  /** `getGfycatId`: on a gfycat.com host, the only segment of a one-segment
      path or the second of a two-segment path. */
  function GetGfycatId(input: string, parse: Parser): (r: Option<string>)
    ensures r.Some? <==> IsGfycatUri(parse(input))
    ensures r.Some? ==> r == Some(LastPathSegment(parse(input)).value) && r.value != ""
    ensures r.Some? && |parse(input).pathSegments| == 1 ==> r.value == parse(input).pathSegments[0]
    ensures r.Some? && |parse(input).pathSegments| == 2 ==> r.value == parse(input).pathSegments[1]
  {
    var uri := parse(input);
    var host := uri.host;
    if !IsEmpty(host) && EndsWith(host, "gfycat.com") then
      var paths := uri.pathSegments;
      if |paths| == 1 then Some(paths[0])
      else if |paths| == 2 then Some(paths[1])
      else None
    else
      None
  }

  // ---------------------------------------------------------------------
  // SoundCloud

  /** The forward scan of `parseSoundCloud`: the first all-digit segment,
      or "" when there is none. */
  function FirstDigitSegment(segments: seq<Segment>): (r: string)
    ensures r == "" <==> forall i :: 0 <= i < |segments| ==> !AllDigits(segments[i])
    ensures r != "" ==> exists i :: 0 <= i < |segments| && segments[i] == r && AllDigits(r)
                          && forall k :: 0 <= k < i ==> !AllDigits(segments[k])
  {
    if segments == [] then ""
    else if IsDigitsOnly(segments[0]) then segments[0]
    else
      var r := FirstDigitSegment(segments[1..]);
      assert forall i :: 1 <= i < |segments| ==> segments[i] == segments[1..][i - 1];
      r
  }

  /** The URL whose path `parseSoundCloud` scans: the link itself on an
      api.soundcloud authority, its `url` parameter on another soundcloud
      authority, and none ("") otherwise. */
  ghost function SoundCloudTrackUrl(baseURL: string, parse: Parser): string {
    var authority := parse(baseURL).authority;
    if Contains(authority, "api.soundcloud") then baseURL
    else if Contains(authority, "soundcloud") then QueryParameter(parse(baseURL), "url")
    else ""
  }

  /** `parseSoundCloud`: null without an authority or a track URL, else the
      first all-digit path segment of the track URL, or "". */
  function ParseSoundCloud(baseURL: string, parse: Parser): (r: Option<string>)
    ensures r.None? <==> parse(baseURL).authority == "" || SoundCloudTrackUrl(baseURL, parse) == ""
    ensures r.Some? ==> r.value == FirstDigitSegment(parse(SoundCloudTrackUrl(baseURL, parse)).pathSegments)
  {
    var parsed := parse(baseURL);
    var authority := parsed.authority;
    if IsEmpty(authority) then None
    else
      var trackURL :=
        if IndexOf(authority, "api.soundcloud") >= 0 then baseURL
        else if IndexOf(authority, "soundcloud") >= 0 then QueryParameter(parse(baseURL), "url")
        else "";
      if IsEmpty(trackURL) then None
      else Some(FirstDigitSegment(parse(trackURL).pathSegments))
  }

  /** `getSoundCloudStreamFromTrackId`: null for an empty id. */
  function GetSoundCloudStreamFromTrackId(trackId: string, clientId: string): (r: Option<string>)
    ensures r.None? <==> trackId == ""
    ensures r.Some? ==> Unenclose(STREAM_PREFIX, r.value, STREAM_INFIX + clientId) == Some(trackId)
  {
    if !IsEmpty(trackId) then
      UnencloseEnclose(STREAM_PREFIX, trackId, STREAM_INFIX + clientId);
      Some(Enclose(STREAM_PREFIX, trackId, STREAM_INFIX + clientId))
    else
      None
  }

  /** Every stream-shaped URL with a non-empty id is the stream URL of that id. */
  lemma StreamUrlOfItsTrackId(url: string, clientId: string)
    requires Unenclose(STREAM_PREFIX, url, STREAM_INFIX + clientId).Some?
    requires Unenclose(STREAM_PREFIX, url, STREAM_INFIX + clientId).value != ""
    ensures GetSoundCloudStreamFromTrackId(Unenclose(STREAM_PREFIX, url, STREAM_INFIX + clientId).value, clientId) == Some(url)
  {
  }

  /** Reference definition: the last all-digit segment. */
  ghost function LastAllDigits(segments: seq<Segment>): Option<Segment> {
    if segments == [] then None
    else if AllDigits(segments[|segments| - 1]) then Some(segments[|segments| - 1])
    else LastAllDigits(segments[..|segments| - 1])
  }

  /** The reference scan finds nothing exactly when no segment is all
      digits; what it finds is an all-digit segment with no all-digit
      segment after it. */
  lemma {:induction false} LastAllDigitsSpec(segments: seq<Segment>)
    ensures LastAllDigits(segments).None? <==> forall i :: 0 <= i < |segments| ==> !AllDigits(segments[i])
    ensures LastAllDigits(segments).Some? ==>
      exists i :: 0 <= i < |segments| && segments[i] == LastAllDigits(segments).value
                  && AllDigits(segments[i])
                  && forall k :: i < k < |segments| ==> !AllDigits(segments[k])
  {
    if segments != [] {
      var n := |segments| - 1;
      var init := segments[..n];
      LastAllDigitsSpec(init);
      assert forall i :: 0 <= i < n ==> segments[i] == init[i];
      if AllDigits(segments[n]) {
        assert LastAllDigits(segments) == Some(segments[n]);
      } else {
        assert LastAllDigits(segments) == LastAllDigits(init);
        if LastAllDigits(init).Some? {
          var i :| 0 <= i < |init| && init[i] == LastAllDigits(init).value && AllDigits(init[i])
                   && forall k :: i < k < |init| ==> !AllDigits(init[k]);
          assert segments[i] == init[i];
        }
      }
    }
  }

  /** The backward scan of `getSoundCloudStream`. */
  method LastDigitSegment(segments: seq<Segment>) returns (id: Option<Segment>)
    ensures id == LastAllDigits(segments)
  {
    id := None;
    var index := |segments| - 1;
    assert segments[..index + 1] == segments;
    while index >= 0
      invariant -1 <= index < |segments|
      invariant LastAllDigits(segments) == LastAllDigits(segments[..index + 1])
    {
      if IsDigitsOnly(segments[index]) {
        id := Some(segments[index]);
        return;
      }
      assert segments[..index + 1][..index] == segments[..index];
      index := index - 1;
    }
  }

  /** The two scans differ as soon as two different segments are all digits. */
  lemma {:induction false} ForwardAndBackwardScans(a: Segment, b: Segment)
    requires AllDigits(a) && AllDigits(b) && a != b
    ensures FirstDigitSegment([a, b]) == a
    ensures LastAllDigits([a, b]) == Some(b)
  {
    assert [a, b][..1] == [a];
  }

  /** With exactly one all-digit segment, the forward and the backward scan
      find the same segment. */
  lemma {:induction false} ScansAgreeOnOneDigitSegment(segments: seq<Segment>, i: nat)
    requires i < |segments| && AllDigits(segments[i])
    requires forall k :: 0 <= k < |segments| && k != i ==> !AllDigits(segments[k])
    ensures FirstDigitSegment(segments) == segments[i]
    ensures LastAllDigits(segments) == Some(segments[i])
  {
    LastAllDigitsSpec(segments);
    var first := FirstDigitSegment(segments);
    var j :| 0 <= j < |segments| && segments[j] == first && AllDigits(first)
             && forall k :: 0 <= k < j ==> !AllDigits(segments[k]);
    var last := LastAllDigits(segments).value;
    var l :| 0 <= l < |segments| && segments[l] == last && AllDigits(segments[l])
             && forall k :: l < k < |segments| ==> !AllDigits(segments[k]);
  }

  /** `getSoundCloudStream`: the stream URL of the last all-digit segment. */
  method GetSoundCloudStream(baseUrl: string, clientId: string, parse: Parser) returns (r: Option<string>)
    ensures r.None? <==> forall i :: 0 <= i < |parse(baseUrl).pathSegments| ==> !AllDigits(parse(baseUrl).pathSegments[i])
    ensures r.Some? ==> && LastAllDigits(parse(baseUrl).pathSegments).Some?
                        && Unenclose(STREAM_PREFIX, r.value, STREAM_INFIX + clientId)
                           == Some(LastAllDigits(parse(baseUrl).pathSegments).value)
  {
    var uri := parse(baseUrl);
    var id := LastDigitSegment(uri.pathSegments);
    LastAllDigitsSpec(uri.pathSegments);
    var trackId: string := if id.Some? then id.value else "";
    r := GetSoundCloudStreamFromTrackId(trackId, clientId);
  }

  // ---------------------------------------------------------------------
  // parseLink

  /** `parseLink`: `Some(e)` when the callback is invoked (once) with `e`
      and the call returns true; `None` when it returns false. */
  function ParseLink(link: string, parse: Parser): (r: Option<Embed>)
    ensures r.Some? ==> r.value.result != "" && r.value.kind != EUnsupported
    ensures r.Some? && r.value.kind == ETwitter ==> AllDigits(r.value.result)
    ensures r.Some? && r.value.kind == EYoutube ==> |r.value.result| == YouTubePattern.ID_LENGTH
    ensures r.Some? && r.value.kind == ESoundCloud ==>
      exists id :: id != "" && AllDigits(id) && r.value.result == Enclose(STREAM_PREFIX, id, STREAM_INFIX + SOUND_CLOUD_CLIENT_ID)
  {
    var tweet := GetTweetId(link, parse);
    if Present(tweet) then Some(Embed(tweet.value, ETwitter))
    else
      var video := GetYoutubeVideoId(link);
      if Present(video) then Some(Embed(video.value, EYoutube))
      else
        var gfy := GetGfycatId(link, parse);
        if Present(gfy) then Some(Embed(gfy.value, EGfycat))
        else
          var track := ParseSoundCloud(link, parse);
          if Present(track) then
            var stream := GetSoundCloudStreamFromTrackId(track.value, SOUND_CLOUD_CLIENT_ID);
            Some(Embed(stream.value, ESoundCloud))
          else
            None
  }

  // ---------------------------------------------------------------------
  // Properties of parseLink

  ghost predicate IsTweetLink(link: string, parse: Parser) {
    && link != []
    && MentionsTwitter(link)
    && LastPathSegment(parse(link)).Some?
    && AllDigits(LastPathSegment(parse(link)).value)
  }

  ghost predicate IsSoundCloudLink(link: string, parse: Parser) {
    && parse(link).authority != ""
    && SoundCloudTrackUrl(link, parse) != ""
    && exists i :: 0 <= i < |parse(SoundCloudTrackUrl(link, parse)).pathSegments|
                   && AllDigits(parse(SoundCloudTrackUrl(link, parse)).pathSegments[i])
  }

  /** The four recognisers are tried in a fixed order and the first one
      with a non-empty answer decides the kind and the result. */
  lemma ParseLinkFirstRecogniserWins(link: string, parse: Parser)
    ensures IsTweetLink(link, parse) ==>
      ParseLink(link, parse) == Some(Embed(LastPathSegment(parse(link)).value, ETwitter))
    ensures !IsTweetLink(link, parse) && YouTubePattern.HasMatch(link) ==>
      ParseLink(link, parse) == Some(Embed(GetYoutubeVideoId(link).value, EYoutube))
    ensures !IsTweetLink(link, parse) && !YouTubePattern.HasMatch(link) && IsGfycatUri(parse(link)) ==>
      ParseLink(link, parse) == Some(Embed(LastPathSegment(parse(link)).value, EGfycat))
    ensures !IsTweetLink(link, parse) && !YouTubePattern.HasMatch(link) && !IsGfycatUri(parse(link))
            && IsSoundCloudLink(link, parse) ==>
      ParseLink(link, parse) == Some(Embed(
        Enclose(STREAM_PREFIX, FirstDigitSegment(parse(SoundCloudTrackUrl(link, parse)).pathSegments),
                STREAM_INFIX + SOUND_CLOUD_CLIENT_ID),
        ESoundCloud))
    ensures ParseLink(link, parse).None? <==>
      && !IsTweetLink(link, parse)
      && !YouTubePattern.HasMatch(link)
      && !IsGfycatUri(parse(link))
      && !IsSoundCloudLink(link, parse)
  {
  }

  /** "gfycat.com" contains "t.co", and Twitter is tried first: a Gfycat link
      whose last path segment is all digits is reported as a tweet. */
  lemma GfycatDigitLinkIsReportedAsTweet(link: string, parse: Parser)
    requires Contains(link, "gfycat.com")
    requires LastPathSegment(parse(link)).Some? && AllDigits(LastPathSegment(parse(link)).value)
    ensures ParseLink(link, parse) == Some(Embed(LastPathSegment(parse(link)).value, ETwitter))
  {
    var i :| OccursAt(link, "gfycat.com", i);
    var host := link[i..i + 10];
    assert host == "gfycat.com";
    assert host[5] == 't' && host[6] == '.' && host[7] == 'c' && host[8] == 'o';
    assert link[i + 5..i + 9] == "t.co";
    assert OccursAt(link, "t.co", i + 5);
    assert IndexOf(link, "t.co") >= 0;
    var last := LastPathSegment(parse(link)).value;
    assert !IsEmpty(last) && IsDigitsOnly(last);
    assert GetTweetId(link, parse) == Some(last);
  }

  /** A Twitter status link, written as the parts the recogniser looks at. */
  const TWEET_LINK: string := "https://" + "twitter" + ".com/user/status/123456"

  /** A status link is classified as a tweet with the status number as id. */
  lemma TwitterStatusLink(parse: Parser)
    requires parse(TWEET_LINK).pathSegments == ["user", "status", "123456"]
    ensures ParseLink(TWEET_LINK, parse) == Some(Embed("123456", ETwitter))
  {
    OccursBetween("https://", "twitter", ".com/user/status/123456");
    assert AllDigits("123456") by {
      var d := "123456";
      assert IsDigit(d[0]) && IsDigit(d[1]) && IsDigit(d[2]) && IsDigit(d[3]) && IsDigit(d[4]) && IsDigit(d[5]);
    }
  }

  /** A link that mentions neither "twitter" nor "t.co", has no YouTube
      match and parses without authority or host is not classified: the
      Gfycat test needs a host and the SoundCloud test an authority. */
  lemma UnmentionedRelativeLinkIsNotClassified(link: string, parse: Parser)
    requires !MentionsTwitter(link) && !YouTubePattern.HasMatch(link)
    requires parse(link).authority == "" && parse(link).host == ""
    ensures ParseLink(link, parse).None?
  {
    ParseLinkFirstRecogniserWins(link, parse);
  }

  /** The text "not a url" parses as a relative path, without authority or
      host; it is not classified. */
  lemma PlainTextIsNotClassified(parse: Parser)
    requires parse("not a url").authority == "" && parse("not a url").host == ""
    ensures ParseLink("not a url", parse).None?
  {
    var s := "not a url";
    assert !Contains(s, "twitter") by {
      var t := "twitter";
      assert s[0] != t[0] && s[1] != t[0] && s[3] != t[1];
    }
    assert !Contains(s, "t.co") by {
      var t := "t.co";
      assert s[0] != t[0] && s[1] != t[0] && s[3] != t[1] && s[3] != t[0] && s[4] != t[0] && s[5] != t[0];
    }
    forall j: nat, g: nat ensures !YouTubePattern.MatchAt(s, j, g) {
      YouTubePattern.MatchBounds(s, j, g);
    }
    UnmentionedRelativeLinkIsNotClassified(s, parse);
  }

  /** A missing authority or host does not stop the Twitter test, which
      reads only the raw text and the last path segment: `t.co/5` parsed
      as a relative path is the tweet 5. */
  lemma RelativeTcoLinkIsTweet(parse: Parser)
    requires parse("t.co/5").pathSegments == ["t.co", "5"]
    ensures ParseLink("t.co/5", parse) == Some(Embed("5", ETwitter))
  {
    var s := "t.co/5";
    assert s[..4] == "t.co";
    assert OccursAt(s, "t.co", 0);
    assert AllDigits("5");
    ParseLinkFirstRecogniserWins(s, parse);
  }

  /** A soundcloud.com page whose `url` parameter names an API track is
      classified by the track number, composed into the stream URL. */
  lemma SoundCloudPageWithTrackParameter(link: string, parse: Parser, trackUrl: string)
    requires trackUrl != ""
    requires parse(link).authority == "soundcloud.com"
    requires "url" in parse(link).query && parse(link).query["url"] == trackUrl
    requires parse(trackUrl).pathSegments == ["tracks", "196567484"]
    ensures ParseSoundCloud(link, parse) == Some("196567484")
    ensures GetSoundCloudStreamFromTrackId("196567484", SOUND_CLOUD_CLIENT_ID)
         == Some("https://api.soundcloud.com/tracks/196567484/stream?consumer_key=" + SOUND_CLOUD_CLIENT_ID)
  {
    var authority := "soundcloud.com";
    assert !Contains(authority, "api.soundcloud") by {
      assert authority[0] != "api.soundcloud"[0];
    }
    assert OccursAt(authority, "soundcloud", 0);
    assert !AllDigits("tracks") by { assert !IsDigit("tracks"[0]); }
    var d := "196567484";
    assert AllDigits(d) by {
      assert IsDigit(d[0]) && IsDigit(d[1]) && IsDigit(d[2]) && IsDigit(d[3]) && IsDigit(d[4]);
      assert IsDigit(d[5]) && IsDigit(d[6]) && IsDigit(d[7]) && IsDigit(d[8]);
    }
    assert SoundCloudTrackUrl(link, parse) == trackUrl;
    var segments := parse(trackUrl).pathSegments;
    assert segments[1] == d && !AllDigits(segments[0]);
    assert FirstDigitSegment(segments) == d;
    StreamUrlOfTrack196567484();
  }

  lemma StreamUrlOfTrack196567484()
    ensures Enclose(STREAM_PREFIX, "196567484", STREAM_INFIX + SOUND_CLOUD_CLIENT_ID)
         == "https://api.soundcloud.com/tracks/196567484/stream?consumer_key=" + SOUND_CLOUD_CLIENT_ID
  {
    var head := STREAM_PREFIX + "196567484" + STREAM_INFIX;
    assert head == "https://api.soundcloud.com/tracks/196567484/stream?consumer_key=";
    assert Enclose(STREAM_PREFIX, "196567484", STREAM_INFIX + SOUND_CLOUD_CLIENT_ID)
        == head + SOUND_CLOUD_CLIENT_ID;
  }
}

=== FILE: graphics.dfy ===
/** `android.graphics.Rect` and `Point`, as plain integer records. */
module Graphics {

  datatype Rect = Rect(left: int, top: int, right: int, bottom: int)

  datatype Point = Point(x: int, y: int)
}

=== FILE: java_int.dfy ===
/** Java `int` arithmetic written out over Dafny's unbounded integers:
    32-bit two's-complement wrap-around, the saturating `(int)` cast of a
    `double`, and division that truncates toward zero. */
module JavaInt {

  const TWO_32: int := 0x1_0000_0000
  const INT_MIN: int := -0x8000_0000
  const INT_MAX: int := 0x7fff_ffff

  predicate InRange(x: int) {
    INT_MIN <= x <= INT_MAX
  }

  /** The `int` a Java expression yields when its exact value is `x`:
      the unique value in range that is congruent to `x` modulo 2^32. */
  function Wrap(x: int): (r: int)
    ensures InRange(r)
    ensures (r - x) % TWO_32 == 0
    ensures InRange(x) ==> r == x
  {
    (x - INT_MIN) % TWO_32 + INT_MIN
  }

  /** The `(int)` cast of an integral `double`: out-of-range values clamp. */
  function Saturate(x: int): (r: int)
    ensures InRange(r)
    ensures InRange(x) ==> r == x
    ensures x > INT_MAX ==> r == INT_MAX
    ensures x < INT_MIN ==> r == INT_MIN
  {
    if x > INT_MAX then INT_MAX else if x < INT_MIN then INT_MIN else x
  }

  function Abs(x: int): nat {
    if x < 0 then -x else x
  }

  /** Java's `a / b`: the quotient rounded toward zero. */
  function Quot(a: int, b: int): (q: int)
    requires b != 0
    ensures Abs(q * b) <= Abs(a) < Abs(q * b) + Abs(b)
    ensures a >= 0 && b > 0 ==> q == a / b
    ensures (a >= 0) == (b > 0) ==> q >= 0
  {
    if (a >= 0) == (b > 0) then Abs(a) / Abs(b) else -(Abs(a) / Abs(b))
  }

  /** The `(int)` cast of a `double`: truncation toward zero, then clamping. */
  function DoubleToInt(x: real): (r: int)
    ensures InRange(r)
  {
    Saturate(if x >= 0.0 then x.Floor else -((-x).Floor))
  }
}

=== FILE: parcels.dfy ===
/** An `android.os.Parcel` as a sequence of typed slots. A span writes its
    registry type tag first and then its fields; reading walks the slots
    with a cursor. */
module Parcels {
  import opened Wrappers

  /** The registry tags of the span kinds in this model; distinct by
      construction, as the run-time id allocator makes them. */
  datatype SpanType = VideoPlayerType | UnsupportedContentType

  datatype Item = TypeTag(tag: SpanType) | Str(text: Option<string>)

  type Parcel = seq<Item>

  datatype ReadError = NotAString(position: nat) | NotATag(position: nat) | Exhausted | NullValue

  /** A value read and the cursor position after it. */
  datatype Read<T> = Read(value: T, next: nat)

  function WriteType(dest: Parcel, tag: SpanType): (p: Parcel)
    ensures |p| == |dest| + 1 && p[..|dest|] == dest && p[|dest|] == TypeTag(tag)
  {
    dest + [TypeTag(tag)]
  }

  /** `writeString`; a null string is written as a null slot. */
  function WriteString(dest: Parcel, s: Option<string>): (p: Parcel)
    ensures |p| == |dest| + 1 && p[..|dest|] == dest && p[|dest|] == Str(s)
  {
    dest + [Str(s)]
  }

  /** `readString`: past the end of the data it yields null. */
  function ReadString(src: Parcel, pos: nat): (r: Result<Read<Option<string>>, ReadError>)
    ensures pos >= |src| ==> r == Success(Read(None, pos))
    ensures pos < |src| && src[pos].Str? ==> r == Success(Read(src[pos].text, pos + 1))
    ensures pos < |src| && !src[pos].Str? ==> r.Failure?
  {
    if pos >= |src| then Success(Read(None, pos))
    else match src[pos]
      case Str(s) => Success(Read(s, pos + 1))
      case TypeTag(_) => Failure(NotAString(pos))
  }

  /** Reads the type tag the registry wrote ahead of a span. */
  function ReadType(src: Parcel, pos: nat): (r: Result<Read<SpanType>, ReadError>)
    ensures r.Success? <==> pos < |src| && src[pos].TypeTag?
    ensures r.Success? ==> r.value == Read(src[pos].tag, pos + 1)
  {
    if pos >= |src| then Failure(Exhausted)
    else match src[pos]
      case TypeTag(t) => Success(Read(t, pos + 1))
      case Str(_) => Failure(NotATag(pos))
  }
}

=== FILE: rich_content_view.dfy ===
/** `RichContentView`, the view that shows one rich-text document: its
    layout cache, touch handling, click dispatch, window-attachment
    notices and the screen anchor of a span.

    The view is an immutable record and every operation returns the next
    record. `StaticLayout` is a `LayoutEngine` of given functions, and
    what an operation asks of its spans or of the platform is returned as
    a value: `Notice`s for the span callbacks and `Action`s for the
    activities and dialogs a click starts. */
module RichContentView {
  import opened Wrappers
  import opened JavaInt
  import opened Graphics
  import opened Documents
  import UnsupportedContentSpan

  const ACTION_DOWN: int := 0
  const ACTION_UP: int := 1

  /** `MeasureSpec` keeps its mode in the top two bits of the `int`. */
  const MEASURE_SPEC_SIZE_LIMIT: int := 0x4000_0000

  const YOUTUBE_WATCH_PREFIX: string := "http://www.youtube.com/watch?v="

  /** Paddings and scroll position of the view. */
  datatype Frame = Frame(
    paddingLeft: int, paddingTop: int, paddingRight: int, paddingBottom: int,
    scrollX: int, scrollY: int)

  /** One `StaticLayout` object: the how-many-th layout this view built,
      the document it lays out, and its width. */
  datatype LayoutRef = LayoutRef(serial: nat, document: nat, width: int)

  /** The queries `RichContentView` makes of a `StaticLayout`. */
  datatype LayoutEngine = LayoutEngine(
    height: LayoutRef -> int,
    lineForVertical: (LayoutRef, int) -> int,
    offsetForHorizontal: (LayoutRef, int, int) -> int,
    lineForOffset: (LayoutRef, int) -> int,
    primaryHorizontal: (LayoutRef, int) -> int,
    lineBounds: (LayoutRef, int) -> Rect)

  /** The view's state: `mText`, `mLayout`, `mLastMeasuredWidth` and
      `mAttachedToWindow`; `builds` counts the layouts ever made. */
  datatype View = View(
    text: Document,
    layout: Option<LayoutRef>,
    lastMeasuredWidth: int,
    attached: bool,
    builds: nat,
    frame: Frame)

  /** A callback the view makes on one of its spans. */
  datatype Notice =
    | SpannedSet(span: Placed)
    | AttachedToWindow(span: Placed)
    | DetachedFromWindow(span: Placed)

  /** The result of an operation that may ask for a new layout pass:
      `relayout` records a `requestLayout()` plus `invalidate()`. */
  datatype Update = Update(view: View, notices: seq<Notice>, relayout: bool)

  /** The layout width for a measured width: the horizontal paddings removed. */
  function ContentWidth(width: int, frame: Frame): int {
    Wrap(Wrap(width - frame.paddingLeft) - frame.paddingRight)
  }

  /** The cache invariant: a layout, when present, was built for the
      current document at the last measured width, and is among those built. */
  predicate Consistent(v: View) {
    v.layout.Some? ==>
      && v.layout.value.document == v.text.id
      && v.layout.value.serial < v.builds
      && v.layout.value.width == ContentWidth(v.lastMeasuredWidth, v.frame)
  }

  /** One notice per span, in the order of the spans. */
  predicate NoticesFor(notices: seq<Notice>, spans: seq<Placed>, make: Placed -> Notice) {
    && |notices| == |spans|
    && forall i :: 0 <= i < |spans| ==> notices[i] == make(spans[i])
  }

  /** A freshly constructed view: an empty document, no layout, width 0. */
  function Init(frame: Frame, emptyId: nat): (v: View)
    ensures v.text.spans == [] && v.text.length == 0
    ensures v.layout.None? && !v.attached && v.lastMeasuredWidth == 0
    ensures Consistent(v)
  {
    View(Document(emptyId, 0, []), None, 0, false, 0, frame)
  }

  /** `setText`: a different document replaces the text and its spans,
      drops the layout and tells every span it now belongs to this view. */
  function SetText(v: View, doc: Document): (r: Update)
    ensures doc.id == v.text.id ==> r == Update(v, [], false)
    ensures doc.id != v.text.id ==>
      && r.view == v.(text := doc, layout := None)
      && r.relayout
      && NoticesFor(r.notices, doc.spans, s => SpannedSet(s))
    ensures Consistent(v) ==> Consistent(r.view)
  {
    if doc.id == v.text.id then Update(v, [], false)
    else
      Update(v.(text := doc, layout := None),
             seq(|doc.spans|, i requires 0 <= i < |doc.spans| => SpannedSet(doc.spans[i])),
             true)
  }

  /** `performLayout`: drops a present layout and asks for a new pass. */
  function PerformLayout(v: View): (r: Update)
    ensures r.notices == []
    ensures r.relayout <==> v.layout.Some?
    ensures r.view.layout.None?
    ensures r.view == v.(layout := None)
    ensures Consistent(v) ==> Consistent(r.view)
  {
    if v.layout.Some? then Update(v.(layout := None), [], true) else Update(v, [], false)
  }

  /** `MeasureSpec.getSize`: the low 30 bits of the spec. */
  function MeasureSpecSize(spec: int): (r: int)
    ensures 0 <= r < MEASURE_SPEC_SIZE_LIMIT
    ensures (spec - r) % MEASURE_SPEC_SIZE_LIMIT == 0
  {
    spec % MEASURE_SPEC_SIZE_LIMIT
  }

  /** The outcome of `onMeasure`: the next state and `setMeasuredDimension`. */
  datatype Measured = Measured(view: View, width: int, height: int)

  /** Whether `onMeasure` with this width has to build a new layout. */
  predicate NeedsLayout(v: View, widthSize: int) {
    v.layout.None? || v.lastMeasuredWidth != widthSize
  }

  /** `onMeasure`: builds a layout exactly when there is none or the width
      changed, then reports the width and the padded layout height. */
  function OnMeasure(v: View, widthSpec: int, engine: LayoutEngine): (r: Measured)
    ensures r.width == MeasureSpecSize(widthSpec) == r.view.lastMeasuredWidth
    ensures r.view.layout.Some?
    ensures r.view.builds == v.builds + 1 <==> NeedsLayout(v, r.width)
    ensures NeedsLayout(v, r.width) ==>
      r.view.layout == Some(LayoutRef(v.builds, v.text.id, ContentWidth(r.width, v.frame)))
    ensures !NeedsLayout(v, r.width) ==> r.view == v
    ensures r.height == Wrap(Wrap(v.frame.paddingTop + v.frame.paddingBottom) + engine.height(r.view.layout.value))
    ensures r.view.text == v.text && r.view.attached == v.attached && r.view.frame == v.frame
    ensures Consistent(v) ==> Consistent(r.view)
  {
    var widthSize := MeasureSpecSize(widthSpec);
    var next :=
      if NeedsLayout(v, widthSize) then
        v.(lastMeasuredWidth := widthSize,
           layout := Some(LayoutRef(v.builds, v.text.id, ContentWidth(widthSize, v.frame))),
           builds := v.builds + 1)
      else v;
    Measured(next, widthSize,
             Wrap(Wrap(v.frame.paddingTop + v.frame.paddingBottom) + engine.height(next.layout.value)))
  }

  /** Measuring twice at the same width builds one layout and reports the
      same dimensions both times. */
  lemma MeasureAgainKeepsLayout(v: View, widthSpec: int, engine: LayoutEngine)
    ensures var first := OnMeasure(v, widthSpec, engine);
            OnMeasure(first.view, widthSpec, engine) == first
  {
    var first := OnMeasure(v, widthSpec, engine);
    assert !NeedsLayout(first.view, first.width);
  }

  /** After a new document is set, the next measure lays out that document. */
  lemma SetTextThenMeasureLaysOutNewText(v: View, doc: Document, widthSpec: int, engine: LayoutEngine)
    requires doc.id != v.text.id
    ensures var m := OnMeasure(SetText(v, doc).view, widthSpec, engine);
            && m.view.builds == v.builds + 1
            && m.view.layout.value.document == doc.id
            && m.view.text == doc
  {
  }

  /** What a click asks the platform to do. */
  datatype Action =
    | OpenUrl(url: string)                               // ACTION_VIEW of the parsed URL
    | ShowFallback(pageUrl: Option<string>)                // a FallbackWebDialog for the URL

  /** The observer, when there is one, handles the click on `span` itself. */
  predicate Claims(observer: Option<Placed -> bool>, span: Placed) {
    observer.Some? && observer.value(span)
  }

  /** What one clicked span asks for: nothing when the observer claims it,
      otherwise decided by its class, YouTube first, then URL, then
      unsupported content. */
  function ActionFor(span: Placed, observer: Option<Placed -> bool>): (r: Option<Action>)
    ensures Claims(observer, span) ==> r.None?
    ensures !Claims(observer, span) && span.kind.youTubeId.Some? ==>
      r == Some(OpenUrl(YOUTUBE_WATCH_PREFIX + span.kind.youTubeId.value))
    ensures !Claims(observer, span) && span.kind.youTubeId.None? && span.kind.url.Some? ==>
      r == Some(OpenUrl(span.kind.url.value))
    ensures !Claims(observer, span) && span.kind.youTubeId.None? && span.kind.url.None?
            && span.kind.unsupported.Some? ==>
      r == Some(ShowFallback(UnsupportedContentSpan.GetUrl(span.kind.unsupported.value)))
    ensures !Claims(observer, span) && span.kind.youTubeId.None? && span.kind.url.None?
            && span.kind.unsupported.None? ==>
      r.None?
  {
    if Claims(observer, span) then None
    else if span.kind.youTubeId.Some? then Some(OpenUrl(YOUTUBE_WATCH_PREFIX + span.kind.youTubeId.value))
    else if span.kind.url.Some? then Some(OpenUrl(span.kind.url.value))
    else if span.kind.unsupported.Some? then Some(ShowFallback(UnsupportedContentSpan.GetUrl(span.kind.unsupported.value)))
    else None
  }

  /** The actions of the spans of `spans`, in array order. */
  function Dispatch(spans: seq<Placed>, observer: Option<Placed -> bool>): (r: seq<Action>)
    ensures |r| <= |spans|
    ensures forall a :: a in r ==> exists s :: s in spans && ActionFor(s, observer) == Some(a)
  {
    if spans == [] then []
    else
      var rest := Dispatch(spans[1..], observer);
      assert forall s :: s in spans[1..] ==> s in spans;
      ActionsOf(spans[0], observer) + rest
  }

  /** The action of one span, as a sequence of zero or one actions. */
  function ActionsOf(span: Placed, observer: Option<Placed -> bool>): seq<Action> {
    match ActionFor(span, observer)
    case Some(a) => [a]
    case None => []
  }

  /** `onSpansClicked`: nothing for a null array, otherwise every span in order. */
  function OnSpansClicked(spans: Option<seq<Placed>>, observer: Option<Placed -> bool>): (r: seq<Action>)
    ensures spans.None? ==> r == []
    ensures spans.Some? ==> r == Dispatch(spans.value, observer)
    ensures spans.Some? ==> |r| <= |spans.value|
    ensures spans.Some? ==> forall a :: a in r ==> exists s :: s in spans.value && ActionFor(s, observer) == Some(a)
  {
    match spans
    case None => []
    case Some(s) => Dispatch(s, observer)
  }

  /** Clicking two groups of spans in one array acts as clicking them one
      group after the other. */
  lemma {:induction false} DispatchAppend(a: seq<Placed>, b: seq<Placed>, observer: Option<Placed -> bool>)
    ensures Dispatch(a + b, observer) == Dispatch(a, observer) + Dispatch(b, observer)
  {
    if a == [] {
      assert a + b == b;
    } else {
      var c := a + b;
      assert c[0] == a[0] && c[1..] == a[1..] + b;
      DispatchAppend(a[1..], b, observer);
      calc {
        Dispatch(c, observer);
        ActionsOf(a[0], observer) + Dispatch(a[1..] + b, observer);
        ActionsOf(a[0], observer) + (Dispatch(a[1..], observer) + Dispatch(b, observer));
        (ActionsOf(a[0], observer) + Dispatch(a[1..], observer)) + Dispatch(b, observer);
      }
    }
  }

  /** Clicking one span starts that span's action, if it has one. Together
      with `DispatchAppend` this determines `Dispatch` on every array: the
      actions of the spans, one at most per span, in array order. */
  lemma DispatchSingle(span: Placed, observer: Option<Placed -> bool>)
    ensures Dispatch([span], observer) == ActionsOf(span, observer)
    ensures |ActionsOf(span, observer)| <= 1
  {
    assert [span][1..] == [];
  }

  /** Spans the observer claims produce no action, wherever they stand. */
  lemma {:induction false} ClaimedSpansAreSkipped(spans: seq<Placed>, observer: Option<Placed -> bool>)
    requires observer.Some?
    requires forall i :: 0 <= i < |spans| ==> observer.value(spans[i])
    ensures Dispatch(spans, observer) == []
  {
    if spans != [] {
      ClaimedSpansAreSkipped(spans[1..], observer);
    }
  }

  /** An unclaimed span that is both a YouTube span and a URL span opens
      the YouTube watch page, never its URL. */
  lemma YouTubeWinsOverUrl(span: Placed, observer: Option<Placed -> bool>, id: string, url: string)
    requires !Claims(observer, span)
    requires span.kind.youTubeId == Some(id) && span.kind.url == Some(url)
    ensures OnSpansClicked(Some([span]), observer) == [OpenUrl(YOUTUBE_WATCH_PREFIX + id)]
  {
    DispatchSingle(span, observer);
  }

  /** An unclaimed span that is both a URL span and unsupported content
      opens its URL, never the fallback dialog. */
  lemma UrlWinsOverUnsupported(span: Placed, observer: Option<Placed -> bool>, url: string)
    requires !Claims(observer, span)
    requires span.kind.youTubeId.None? && span.kind.url == Some(url) && span.kind.unsupported.Some?
    ensures OnSpansClicked(Some([span]), observer) == [OpenUrl(url)]
  {
    DispatchSingle(span, observer);
  }

  /** A motion event: its action code and its floating-point coordinates. */
  datatype MotionEvent = MotionEvent(action: int, x: real, y: real)

  /** What `onTouchEvent` does: defer to the superclass, or consume the
      event, returning `handled`, after starting `actions`. */
  datatype TouchOutcome = Deferred | Consumed(handled: bool, actions: seq<Action>)

  /** The event position in content coordinates: the `(int)` casts of the
      event coordinates, less the padding, plus the scroll offset. */
  function ContentPoint(v: View, event: MotionEvent): (p: Point)
    ensures InRange(p.x) && InRange(p.y)
    ensures var x := DoubleToInt(event.x);
            InRange(x - v.frame.paddingLeft + v.frame.scrollX)
            && InRange(x - v.frame.paddingLeft)
            ==> p.x == x - v.frame.paddingLeft + v.frame.scrollX
    ensures var y := DoubleToInt(event.y);
            InRange(y - v.frame.paddingTop + v.frame.scrollY)
            && InRange(y - v.frame.paddingTop)
            ==> p.y == y - v.frame.paddingTop + v.frame.scrollY
  {
    Point(Wrap(Wrap(DoubleToInt(event.x) - v.frame.paddingLeft) + v.frame.scrollX),
          Wrap(Wrap(DoubleToInt(event.y) - v.frame.paddingTop) + v.frame.scrollY))
  }

  /** The text offset under the event, through the layout's line and offset lookups. */
  function TouchedOffset(v: View, engine: LayoutEngine, event: MotionEvent): int
    requires v.layout.Some?
  {
    var p := ContentPoint(v, event);
    engine.offsetForHorizontal(v.layout.value, engine.lineForVertical(v.layout.value, p.y), p.x)
  }

  /** `onTouchEvent`: with a layout and an UP or DOWN event, an animatable
      span under the touch makes the view decline the event; otherwise it
      is consumed, and on UP the clickable spans under it are clicked. */
  function OnTouchEvent(v: View, engine: LayoutEngine, event: MotionEvent,
                        observer: Option<Placed -> bool>): (r: TouchOutcome)
    ensures r.Deferred? <==> v.layout.None? || (event.action != ACTION_UP && event.action != ACTION_DOWN)
    ensures r.Consumed? ==>
      (!r.handled <==> exists s :: s in v.text.spans && Covers(s, TouchedOffset(v, engine, event)) && s.kind.animatable)
    ensures r.Consumed? && !r.handled ==> r.actions == []
    ensures r.Consumed? && event.action == ACTION_DOWN ==> r.actions == []
    ensures r.Consumed? && r.handled && event.action == ACTION_UP ==>
      r.actions == Dispatch(SpansAt(v.text.spans, TouchedOffset(v, engine, event), ClickableSpans), observer)
    ensures r.Consumed? ==> forall a :: a in r.actions ==>
      exists s :: s in v.text.spans && Covers(s, TouchedOffset(v, engine, event))
                  && s.kind.clickable && ActionFor(s, observer) == Some(a)
  {
    if v.layout.None? || (event.action != ACTION_UP && event.action != ACTION_DOWN) then Deferred
    else
      var offset := TouchedOffset(v, engine, event);
      var animatables := SpansAt(v.text.spans, offset, AnimatableSpans);
      if |animatables| > 0 then
        assert animatables[0] in animatables;
        Consumed(false, [])
      else
        assert forall s :: s in v.text.spans && Covers(s, offset) && s.kind.animatable ==> s in animatables;
        var link := SpansAt(v.text.spans, offset, ClickableSpans);
        if |link| != 0 && event.action == ACTION_UP then Consumed(true, OnSpansClicked(Some(link), observer))
        else Consumed(true, [])
  }

  /** Touching a video player span is never handled by the view, even on UP. */
  lemma TouchOnVideoPlayerIsDeclined(v: View, engine: LayoutEngine, event: MotionEvent,
                                     observer: Option<Placed -> bool>, span: Placed)
    requires v.layout.Some? && event.action == ACTION_UP
    requires span in v.text.spans && span.kind == VIDEO_PLAYER_KIND
    requires Covers(span, TouchedOffset(v, engine, event))
    ensures OnTouchEvent(v, engine, event, observer) == Consumed(false, [])
  {
  }

  /** Releasing where exactly one clickable span and no animatable span
      lie under the touch, in a document of any size, clicks that span. */
  lemma ReleaseOverOneLinkClicksIt(v: View, engine: LayoutEngine, event: MotionEvent,
                                   observer: Option<Placed -> bool>, span: Placed)
    requires v.layout.Some? && event.action == ACTION_UP
    requires SpansAt(v.text.spans, TouchedOffset(v, engine, event), ClickableSpans) == [span]
    requires SpansAt(v.text.spans, TouchedOffset(v, engine, event), AnimatableSpans) == []
    ensures OnTouchEvent(v, engine, event, observer) == Consumed(true, ActionsOf(span, observer))
  {
    DispatchSingle(span, observer);
  }

  /** A URL span among others that do not reach the touched offset: a
      release over it opens its URL and nothing else. */
  lemma ReleaseOverUrlOpensIt(v: View, engine: LayoutEngine, event: MotionEvent,
                              before: seq<Placed>, link: Placed, after: seq<Placed>, url: string)
    requires v.layout.Some? && event.action == ACTION_UP
    requires v.text.spans == before + [link] + after
    requires forall s :: s in before + after ==> !Covers(s, TouchedOffset(v, engine, event))
    requires Covers(link, TouchedOffset(v, engine, event))
    requires link.kind == SpanKind(None, Some(url), None, true, false)
    ensures OnTouchEvent(v, engine, event, None) == Consumed(true, [OpenUrl(url)])
  {
    var off := TouchedOffset(v, engine, event);
    forall filter: Filter ensures SpansAt(v.text.spans, off, filter) == SpansAt([link], off, filter) {
      SpansAtAppend(before + [link], after, off, filter);
      SpansAtAppend(before, [link], off, filter);
      assert forall i :: 0 <= i < |before| ==> before[i] in before + after;
      assert forall i :: 0 <= i < |after| ==> after[i] in before + after;
      SpansAtMissed(before, off, filter);
      SpansAtMissed(after, off, filter);
    }
    SpansAtSingle(link, off, ClickableSpans);
    SpansAtSingle(link, off, AnimatableSpans);
    DispatchSingle(link, None);
  }

  /** `onAttachedToWindow`: records the attachment and tells every span. */
  function OnAttachedToWindow(v: View): (r: Update)
    ensures r.view == v.(attached := true) && !r.relayout
    ensures NoticesFor(r.notices, v.text.spans, s => AttachedToWindow(s))
    ensures Consistent(v) ==> Consistent(r.view)
  {
    Update(v.(attached := true),
           seq(|v.text.spans|, i requires 0 <= i < |v.text.spans| => AttachedToWindow(v.text.spans[i])),
           false)
  }

  /** `onDetachedFromWindow`: records the detachment and tells every span. */
  function OnDetachedFromWindow(v: View): (r: Update)
    ensures r.view == v.(attached := false) && !r.relayout
    ensures NoticesFor(r.notices, v.text.spans, s => DetachedFromWindow(s))
    ensures Consistent(v) ==> Consistent(r.view)
  {
    Update(v.(attached := false),
           seq(|v.text.spans|, i requires 0 <= i < |v.text.spans| => DetachedFromWindow(v.text.spans[i])),
           false)
  }

  /** `viewAttachedToWindow`: the flag the last attach or detach left. */
  function ViewAttachedToWindow(v: View): bool {
    v.attached
  }

  /** `viewAttachedToWindow` reports the last window callback: true after
      attaching, false initially and after detaching, and untouched by
      setting text or measuring. */
  lemma AttachedFlagFollowsCallbacks(v: View, frame: Frame, emptyId: nat, doc: Document,
                                     widthSpec: int, engine: LayoutEngine)
    ensures !ViewAttachedToWindow(Init(frame, emptyId))
    ensures ViewAttachedToWindow(OnAttachedToWindow(v).view)
    ensures !ViewAttachedToWindow(OnDetachedFromWindow(v).view)
    ensures ViewAttachedToWindow(SetText(v, doc).view) == ViewAttachedToWindow(v)
    ensures ViewAttachedToWindow(OnMeasure(v, widthSpec, engine).view) == ViewAttachedToWindow(v)
  {
  }

  /** Attaching and then detaching restores the view and notifies every
      span twice, first as attached and then as detached. */
  lemma AttachThenDetachRestores(v: View)
    ensures ViewAttachedToWindow(OnAttachedToWindow(v).view)
    ensures OnDetachedFromWindow(OnAttachedToWindow(v).view).view == v.(attached := false)
    ensures !ViewAttachedToWindow(OnDetachedFromWindow(OnAttachedToWindow(v).view).view)
  {
  }

  /** `getSpanStart` / `getSpanEnd`: where the text holds the span, -1
      for a span not in the text. */
  function SpanStart(doc: Document, span: Placed): (r: int)
    ensures span in doc.spans ==> r == span.start
    ensures span !in doc.spans ==> r == -1
    ensures WellFormed(doc) ==> (r == -1 <==> span !in doc.spans)
  {
    if span in doc.spans then span.start else -1
  }

  function SpanEnd(doc: Document, span: Placed): (r: int)
    ensures span in doc.spans ==> r == span.end
    ensures span !in doc.spans ==> r == -1
    ensures WellFormed(doc) ==> (r == -1 <==> span !in doc.spans)
  {
    if span in doc.spans then span.end else -1
  }

  /** In a well-formed text a span's offsets are an ordered pair inside it. */
  lemma SpanOffsetsInText(doc: Document, span: Placed)
    requires WellFormed(doc) && span in doc.spans
    ensures 0 <= SpanStart(doc, span) <= SpanEnd(doc, span) <= doc.length
  {
    var i :| 0 <= i < |doc.spans| && doc.spans[i] == span;
  }

  /** The left edge of the span's on-screen rectangle: the start line's
      left bound moved by the view's screen position, the horizontal
      position of the span start and the padding, less the scroll. */
  function SpanLeft(v: View, engine: LayoutEngine, span: Placed, screen: Point): int
    requires v.layout.Some?
  {
    var layout := v.layout.value;
    var startLine := engine.lineForOffset(layout, SpanStart(v.text, span));
    var startX := engine.primaryHorizontal(layout, SpanStart(v.text, span));
    Saturate(engine.lineBounds(layout, startLine).left
             + (screen.x + startX + v.frame.paddingLeft - v.frame.scrollX))
  }

  /** The right edge: the left edge plus the horizontal extent of the span. */
  function SpanRight(v: View, engine: LayoutEngine, span: Placed, screen: Point): int
    requires v.layout.Some?
  {
    var layout := v.layout.value;
    Saturate(SpanLeft(v, engine, span, screen)
             + engine.primaryHorizontal(layout, SpanEnd(v.text, span))
             - engine.primaryHorizontal(layout, SpanStart(v.text, span)))
  }

  /** Whether the span starts and ends on different lines. */
  predicate MultiLine(v: View, engine: LayoutEngine, span: Placed)
    requires v.layout.Some?
  {
    engine.lineForOffset(v.layout.value, SpanStart(v.text, span))
      != engine.lineForOffset(v.layout.value, SpanEnd(v.text, span))
  }

  /** `getSpanOrigin`: the point under a span where a popup is anchored,
      at the bottom of the span's first line; horizontally the span's left
      edge when it wraps and the middle of its extent when it does not.
      `screen` is the view's position from `getLocationOnScreen`. Without
      a layout the source fails with a NullPointerException on
      `mLayout`; the model returns `None` there. */
  function GetSpanOrigin(v: View, engine: LayoutEngine, span: Placed, screen: Point): (r: Option<Point>)
    ensures r.None? <==> v.layout.None?
    ensures r.Some? ==> InRange(r.value.x) && InRange(r.value.y)
    ensures r.Some? ==>
      var layout := v.layout.value;
      var line := engine.lineForOffset(layout, SpanStart(v.text, span));
      var shift := Wrap(Wrap(screen.y - v.frame.scrollY) + v.frame.paddingTop);
      r.value.y == Saturate(engine.lineBounds(layout, line).bottom + shift)
    ensures r.Some? && MultiLine(v, engine, span) ==> r.value.x == SpanLeft(v, engine, span, screen)
    ensures r.Some? && !MultiLine(v, engine, span) ==>
      var left := SpanLeft(v, engine, span, screen);
      var right := SpanRight(v, engine, span, screen);
      InRange(left + right) ==>
        && -1 <= (left + right) - 2 * r.value.x <= 1
        && (left + right >= 0 ==> r.value.x == (left + right) / 2)
        && (left + right < 0 ==> r.value.x == -((-(left + right)) / 2))
        && (left <= right ==> left <= r.value.x <= right)
        && (right <= left ==> right <= r.value.x <= left)
  {
    if v.layout.None? then None
    else
      var layout := v.layout.value;
      var startLine := engine.lineForOffset(layout, SpanStart(v.text, span));
      var bounds := engine.lineBounds(layout, startLine);
      var shift := Wrap(Wrap(screen.y - v.frame.scrollY) + v.frame.paddingTop);
      var bottom := Saturate(bounds.bottom + shift);
      var left := SpanLeft(v, engine, span, screen);
      var right := SpanRight(v, engine, span, screen);
      var x := if MultiLine(v, engine, span) then left else Quot(Wrap(left + right), 2);
      MidpointBetween(left, right);
      Some(Point(x, bottom))
  }

  /** Java's `(a + b) / 2` of two `int`s whose sum does not overflow is
      their midpoint, rounded toward zero, and lies between them. */
  lemma MidpointBetween(a: int, b: int)
    ensures InRange(a) && InRange(b) ==> InRange(Quot(Wrap(a + b), 2))
    ensures InRange(a + b) ==> -1 <= (a + b) - 2 * Quot(Wrap(a + b), 2) <= 1
    ensures InRange(a + b) && a + b >= 0 ==> Quot(Wrap(a + b), 2) == (a + b) / 2
    ensures InRange(a + b) && a + b < 0 ==> Quot(Wrap(a + b), 2) == -((-(a + b)) / 2)
    ensures InRange(a + b) ==>
      && (a <= b ==> a <= Quot(Wrap(a + b), 2) <= b)
      && (b <= a ==> b <= Quot(Wrap(a + b), 2) <= a)
  {
    var q := Quot(Wrap(a + b), 2);
    if InRange(a + b) {
      assert Wrap(a + b) == a + b;
      if a + b >= 0 {
        assert q == (a + b) / 2;
      } else {
        assert q == -((-(a + b)) / 2);
      }
    }
  }
}

=== FILE: text_utils.dfy ===
/** The string tests the core relies on, each written the way the Java
    library computes it and tied to a declarative definition:
    `String.indexOf`, `String.endsWith`, `TextUtils.isEmpty` and
    `TextUtils.isDigitsOnly`. Strings are `seq<char>`; a Java `null` that is
    only ever tested with `TextUtils.isEmpty` is represented by "". */
module TextUtils {

  /** `t` occurs in `s` starting at index `i`. */
  predicate OccursAt(s: string, t: string, i: int) {
    0 <= i && i + |t| <= |s| && s[i..i + |t|] == t
  }

  /** `t` occurs in `p + t + r` right after `p`. */
  lemma OccursBetween(p: string, t: string, r: string)
    ensures OccursAt(p + t + r, t, |p|)
  {
    assert (p + t + r)[|p|..|p| + |t|] == t;
  }

  /** Declarative substring containment. */
  ghost predicate Contains(s: string, t: string) {
    exists i :: OccursAt(s, t, i)
  }

  /** The scan behind `s.indexOf(t, k)`: the first index at or after `k`
      where `t` occurs, or -1. */
  function IndexFrom(s: string, t: string, k: nat): (r: int)
    decreases |s| - k
    ensures r == -1 || (k <= r && OccursAt(s, t, r))
    ensures r == -1 ==> forall i :: k <= i ==> !OccursAt(s, t, i)
    ensures r != -1 ==> forall i :: k <= i < r ==> !OccursAt(s, t, i)
  {
    if k + |t| > |s| then -1
    else if s[k..k + |t|] == t then k
    else IndexFrom(s, t, k + 1)
  }

  /** `s.indexOf(t)`. */
  function IndexOf(s: string, t: string): (r: int)
    ensures r >= 0 <==> Contains(s, t)
    ensures r >= 0 ==> OccursAt(s, t, r) && forall i :: 0 <= i < r ==> !OccursAt(s, t, i)
    ensures r < 0 ==> r == -1
  {
    IndexFrom(s, t, 0)
  }

  /** `s.endsWith(t)`, which Java computes as a region match at `|s| - |t|`. */
  function EndsWith(s: string, t: string): (r: bool)
    ensures r <==> exists u :: u + t == s
  {
    SuffixMatchIsSplit(s, t);
    |t| <= |s| && s[|s| - |t|..] == t
  }

  /** The region match at `|s| - |t|` succeeds exactly when `s` splits as `u + t`. */
  lemma SuffixMatchIsSplit(s: string, t: string)
    ensures (|t| <= |s| && s[|s| - |t|..] == t) <==> exists u :: u + t == s
  {
    forall u | u + t == s ensures |t| <= |s| && s[|s| - |t|..] == t {
      assert s[|u|..] == t;
    }
    if |t| <= |s| && s[|s| - |t|..] == t {
      assert s[..|s| - |t|] + t == s;
    }
  }

  /** `TextUtils.isEmpty`: null or of length zero. */
  predicate IsEmpty(s: string) {
    |s| == 0
  }

  /** `Character.isDigit`, restricted to ASCII decimal digits. */
  predicate IsDigit(c: char) {
    '0' <= c <= '9'
  }

  /** Declarative: every character of `s` is a digit. */
  ghost predicate AllDigits(s: string) {
    forall i :: 0 <= i < |s| ==> IsDigit(s[i])
  }

  /** The loop of `TextUtils.isDigitsOnly`, from index `k` on. */
  function DigitsOnlyFrom(s: string, k: nat): (r: bool)
    requires k <= |s|
    decreases |s| - k
    ensures r <==> forall i :: k <= i < |s| ==> IsDigit(s[i])
  {
    if k == |s| then true
    else if !IsDigit(s[k]) then false
    else DigitsOnlyFrom(s, k + 1)
  }

  /** `TextUtils.isDigitsOnly`: true for the empty string as well. */
  function IsDigitsOnly(s: string): (r: bool)
    ensures r <==> AllDigits(s)
  {
    DigitsOnlyFrom(s, 0)
  }
}

=== FILE: unsupported_content_span.dfy ===
/** `UnsupportedContentSpan`: a clickable fallback for content the
    document cannot show inline. Its only state is the URL to open. */
module UnsupportedContentSpan {
  import opened Wrappers
  import opened Parcels
  import opened Views

  const TYPE: SpanType := UnsupportedContentType

  /** The span; `url` is `None` where the Java field is null. */
  datatype UnsupportedSpan = UnsupportedSpan(url: Option<string>)

  /** `new UnsupportedContentSpan()`: no URL yet. */
  function Empty(): (r: UnsupportedSpan)
    ensures GetUrl(r).None?
  {
    UnsupportedSpan(None)
  }

  /** `new UnsupportedContentSpan(url)`. */
  function FromUrl(url: Option<string>): (r: UnsupportedSpan)
    ensures GetUrl(r) == url
  {
    UnsupportedSpan(url)
  }

  /** `new UnsupportedContentSpan(parcel)`: an empty span that reads itself. */
  function FromParcel(src: Parcel, pos: nat): (r: Result<Read<UnsupportedSpan>, ReadError>)
    ensures r.Success? <==> ReadString(src, pos).Success?
    ensures r.Success? ==> GetUrl(r.value.value) == ReadString(src, pos).value.value
  {
    ReadFromParcel(Empty(), src, pos)
  }

  /** `getURL`: the stored URL; null exactly for a span built without one. */
  function GetUrl(span: UnsupportedSpan): (r: Option<string>)
    ensures r == span.url
    ensures r.None? <==> span == UnsupportedSpan(None)
  {
    span.url
  }

  /** `getType`: always the class's registry tag. */
  function GetType(span: UnsupportedSpan): (r: SpanType)
    ensures r == UnsupportedContentType && r != VideoPlayerType
  {
    TYPE
  }

  /** `describeContents`. */
  function DescribeContents(span: UnsupportedSpan): (r: int)
    ensures r == 0
  {
    0
  }

  /** `writeToParcel`: the type tag, then the URL as one (possibly null) string. */
  function WriteToParcel(span: UnsupportedSpan, dest: Parcel): (r: Parcel)
    ensures |r| == |dest| + 2 && r[..|dest|] == dest
    ensures r[|dest|] == TypeTag(TYPE) && r[|dest| + 1] == Str(GetUrl(span))
  {
    WriteString(WriteType(dest, GetType(span)), span.url)
  }

  /** `readFromParcel`: the next string, null included, becomes the URL. */
  function ReadFromParcel(span: UnsupportedSpan, src: Parcel, pos: nat): (r: Result<Read<UnsupportedSpan>, ReadError>)
    ensures r.Success? <==> ReadString(src, pos).Success?
    ensures r.Success? ==> GetUrl(r.value.value) == ReadString(src, pos).value.value
    ensures r.Success? ==> r.value.next == ReadString(src, pos).value.next
  {
    var s :- ReadString(src, pos);
    Success(Read(UnsupportedSpan(s.value), s.next))
  }

  /** Writing a span and reading it back, through `readFromParcel` or the
      parcel constructor, restores its URL, null or not. */
  lemma {:induction false} ParcelRoundTrip(span: UnsupportedSpan, dest: Parcel, target: UnsupportedSpan)
    ensures var p := WriteToParcel(span, dest);
      && ReadType(p, |dest|) == Success(Read(TYPE, |dest| + 1))
      && ReadFromParcel(target, p, |dest| + 1) == Success(Read(span, |p|))
      && FromParcel(p, |dest| + 1) == Success(Read(span, |p|))
  {
    var p := WriteToParcel(span, dest);
    assert ReadString(p, |dest| + 1) == Success(Read(span.url, |dest| + 2));
  }

  /** `onAttachedToView`: does nothing. */
  function OnAttachedToView(span: UnsupportedSpan, view: ViewRef): (r: UnsupportedSpan)
    ensures r == span
  {
    span
  }

  /** `onDetachedFromView`: does nothing. */
  function OnDetachedFromView(span: UnsupportedSpan, view: ViewRef): (r: UnsupportedSpan)
    ensures r == span
  {
    span
  }

  /** `onSpannedSetToView`: does nothing; the span keeps no view reference. */
  function OnSpannedSetToView(span: UnsupportedSpan, view: ViewRef): (r: UnsupportedSpan)
    ensures r == span
  {
    span
  }
}

=== FILE: uris.dfy ===
/** The parts of `android.net.Uri` the classifier reads. Parsing itself is
    library code and is not modelled: every operation that calls
    `Uri.parse` takes the parse function as a parameter of type `Parser`. */
module Uris {
  import opened Wrappers

  /** `getPathSegments` never yields an empty segment. */
  type Segment = s: string | s != [] witness "_"

  /** A parsed URI. `authority` and `host` are "" where the library returns
      null; `query` maps each parameter name to its first decoded value. */
  datatype Uri = Uri(
    authority: string,
    host: string,
    pathSegments: seq<Segment>,
    query: map<string, string>)

  type Parser = string -> Uri

  /** `getLastPathSegment`: null for a URI without path segments. */
  function LastPathSegment(u: Uri): (r: Option<Segment>)
    ensures r.None? <==> u.pathSegments == []
    ensures r.Some? ==> r.value in u.pathSegments
    ensures r.Some? ==> exists init :: init + [r.value] == u.pathSegments
  {
    if u.pathSegments == [] then None
    else
      var n := |u.pathSegments|;
      assert u.pathSegments[..n - 1] + [u.pathSegments[n - 1]] == u.pathSegments;
      Some(u.pathSegments[n - 1])
  }

  /** `getQueryParameter(key)`: "" stands for the null of an absent key. */
  function QueryParameter(u: Uri, key: string): (r: string)
    ensures key in u.query ==> r == u.query[key]
    ensures key !in u.query ==> r == ""
  {
    if key in u.query then u.query[key] else ""
  }
}

=== FILE: video_player_span.dfy ===
/** `VideoPlayerSpan`: an inline video element. It reserves a 16:9 box as
    wide as its host view, records where it was last drawn, creates its
    inline player once, and forwards start/stop to that player. */
module VideoPlayerSpan {
  import opened Wrappers
  import opened JavaInt
  import opened Graphics
  import opened Parcels
  import opened Views

  const TYPE: SpanType := VideoPlayerType

  /** The host view's current measurements, read through the reference. */
  datatype HostMetrics = HostMetrics(measuredWidth: int, paddingLeft: int, paddingRight: int)

  datatype FontMetricsInt = FontMetricsInt(top: int, ascent: int, descent: int, bottom: int, leading: int)

  /** `FrameLayout.LayoutParams` as built by the host's `generateDefaultLayoutParams`. */
  datatype LayoutParams = LayoutParams(width: int, height: int, leftMargin: int, topMargin: int)

  /** The inline player: the URI it plays, where it sits, and whether it plays. */
  datatype Player = Player(data: Option<string>, params: LayoutParams, playing: bool)

  /** The arguments of the last `draw` call and the derived vertical offset. */
  datatype DrawState = DrawState(start: int, end: int, x: int, top: int, y: int, bottom: int, transY: int)

  datatype VideoSpan = VideoSpan(
    uri: Option<string>,
    view: Option<ViewRef>,
    player: Option<Player>,
    drawn: DrawState)

  datatype SizeResult = SizeResult(width: int, metrics: Option<FontMetricsInt>)

  /** The new state of a span and whether a player view was added to the host. */
  datatype Prepared = Prepared(span: VideoSpan, addedPlayer: bool)

  const NOT_DRAWN: DrawState := DrawState(0, 0, 0, 0, 0, 0, 0)

  /** `new VideoPlayerSpan()`, used before `readFromParcel`. */
  function Empty(): (r: VideoSpan)
    ensures r.uri.None? && r.view.None? && r.player.None?
  {
    VideoSpan(None, None, None, NOT_DRAWN)
  }

  /** `new VideoPlayerSpan(videoUrl, maxWidth)`: `maxWidth` is not used. */
  function New(videoUrl: string, maxWidth: int): (r: VideoSpan)
    ensures r.uri == Some(videoUrl) && r.view.None? && r.player.None?
  {
    VideoSpan(Some(videoUrl), None, None, NOT_DRAWN)
  }

  // ---------------------------------------------------------------------
  // Geometry

  /** `getBitmapSize`: the box is (0, 0, w, (int)(w / 16.0 * 9)) where w is
      the host's measured width less its right padding, taken twice. The
      height is computed in `double`, which is exact for every `int` w. */
  function GetBitmapSize(span: VideoSpan, host: HostMetrics): (r: Rect)
    requires span.view.Some?
    ensures r.left == 0 && r.top == 0
    ensures r.right == Wrap(host.measuredWidth - 2 * host.paddingRight)
    ensures r.right >= 0 ==> r.bottom == r.right * 9 / 16
    ensures r.right < 0 ==> r.bottom == -((-r.right) * 9 / 16)
    ensures InRange(r.bottom) && InRange(-r.bottom)
  {
    var viewDisplayWidth := Wrap(host.measuredWidth - host.paddingRight - host.paddingRight);
    var measure: real := viewDisplayWidth as real;
    var height: real := measure / 16.0 * 9.0;
    NineSixteenths(viewDisplayWidth);
    Rect(0, 0, DoubleToInt(measure), DoubleToInt(height))
  }

  /** The `double` computation of the height agrees with integer arithmetic. */
  lemma NineSixteenths(w: int)
    requires InRange(w)
    ensures w >= 0 ==> DoubleToInt(w as real / 16.0 * 9.0) == w * 9 / 16
    ensures w < 0 ==> DoubleToInt(w as real / 16.0 * 9.0) == -((-w) * 9 / 16)
    ensures DoubleToInt(w as real) == w
    ensures InRange(-DoubleToInt(w as real / 16.0 * 9.0))
  {
    var n := if w >= 0 then w * 9 else (-w) * 9;
    FloorOfSixteenth(n);
    assert (w as real / 16.0 * 9.0) == (w * 9) as real / 16.0;
    if w < 0 {
      assert -(w as real / 16.0 * 9.0) == n as real / 16.0;
    }
  }

  lemma FloorOfSixteenth(n: nat)
    ensures (n as real / 16.0).Floor == n / 16
  {
    var q := n / 16;
    var rem := n % 16;
    assert n == 16 * q + rem;
    assert n as real / 16.0 == q as real + rem as real / 16.0;
  }

  /** `getSize`: the advance is the box width; metrics, when given, make
      the span rise the full box height above the baseline with nothing
      below it. */
  function GetSize(span: VideoSpan, host: HostMetrics, fm: Option<FontMetricsInt>): (r: SizeResult)
    requires span.view.Some?
    ensures r.width == Wrap(host.measuredWidth - 2 * host.paddingRight)
    ensures fm.None? ==> r.metrics.None?
    ensures fm.Some? ==>
      && r.metrics.Some?
      && r.metrics.value.ascent == -GetBitmapSize(span, host).bottom
      && r.metrics.value.descent == 0
      && r.metrics.value.top == r.metrics.value.ascent
      && r.metrics.value.bottom == 0
      && r.metrics.value.leading == fm.value.leading
  {
    var rect := GetBitmapSize(span, host);
    var metrics :=
      if fm.Some? then
        // -rect.bottom cannot overflow: GetBitmapSize ensures it is in range
        var m := fm.value.(ascent := -rect.bottom, descent := 0);
        Some(m.(top := m.ascent, bottom := 0))
      else
        None;
    SizeResult(rect.right, metrics)
  }

  /** The line height reserved by `getSize` is exactly the box height. */
  lemma ReservedHeightIsBoxHeight(span: VideoSpan, host: HostMetrics, fm: FontMetricsInt)
    requires span.view.Some?
    ensures var m := GetSize(span, host, Some(fm)).metrics.value;
      m.descent - m.ascent == GetBitmapSize(span, host).bottom - GetBitmapSize(span, host).top
  {
  }

  // ---------------------------------------------------------------------
  // Drawing and the inline player

  /** `prepareVideoView`: creates and adds the player only when there is
      none, then places it at the drawn position with the box's size. */
  function PrepareVideoView(span: VideoSpan, host: HostMetrics): (r: Prepared)
    requires span.view.Some?
    ensures r.addedPlayer <==> span.player.None?
    ensures r.span.player.Some?
    ensures span.player.Some? ==>
      && r.span.player.value.data == span.player.value.data
      && r.span.player.value.playing == span.player.value.playing
    ensures span.player.None? ==> r.span.player.value.data == span.uri && !r.span.player.value.playing
    ensures r.span.player.value.params.leftMargin == span.drawn.x
    ensures r.span.player.value.params.topMargin == span.drawn.transY
    ensures r.span.player.value.params.width == GetSize(span, host, None).width
    ensures r.span.player.value.params.height == GetBitmapSize(span, host).bottom
    ensures r.span.(player := None) == span.(player := None)
  {
    var size := GetBitmapSize(span, host);
    var params := LayoutParams(Wrap(size.right - size.left), Wrap(size.bottom - size.top),
                               span.drawn.x, span.drawn.transY);
    if span.player.None? then
      Prepared(span.(player := Some(Player(span.uri, params, false))), true)
    else
      Prepared(span.(player := Some(span.player.value.(params := params))), false)
  }

  /** `draw`: records its arguments, puts the box's top at the line bottom
      less the box height less the paint's descent, and prepares the player.
      `x` is the integer the source truncates the float position to. */
  function Draw(span: VideoSpan, host: HostMetrics, start: int, end: int, x: int,
                top: int, y: int, bottom: int, paintDescent: int): (r: Prepared)
    requires span.view.Some?
    ensures r.span.drawn.start == start && r.span.drawn.end == end && r.span.drawn.x == x
    ensures r.span.drawn.top == top && r.span.drawn.y == y && r.span.drawn.bottom == bottom
    ensures r.span.drawn.transY == Wrap(bottom - GetBitmapSize(span, host).bottom - paintDescent)
    ensures r.addedPlayer <==> span.player.None?
    ensures r.span.uri == span.uri && r.span.view == span.view
  {
    var bitmapBounds := GetBitmapSize(span, host);
    var transY := Wrap(Wrap(bottom - bitmapBounds.bottom) - paintDescent);
    WrapTwice(bottom - bitmapBounds.bottom, paintDescent);
    var recorded := span.(drawn := DrawState(start, end, x, top, y, bottom, transY));
    PrepareVideoView(recorded, host)
  }

  /** Subtracting in two wrapped steps equals one wrapped subtraction. */
  lemma WrapTwice(a: int, b: int)
    ensures Wrap(Wrap(a) - b) == Wrap(a - b)
  {
    var k := (Wrap(a) - a) / TWO_32;
    assert Wrap(a) - b == (a - b) + k * TWO_32;
    WrapPeriodic(a - b, k);
  }

  lemma WrapPeriodic(x: int, k: int)
    ensures Wrap(x + k * TWO_32) == Wrap(x)
  {
    assert (x + k * TWO_32 - INT_MIN) % TWO_32 == (x - INT_MIN) % TWO_32;
  }

  /** Drawing twice creates one player: the second call only moves it. */
  lemma {:induction false} DrawCreatesPlayerOnce(span: VideoSpan, host: HostMetrics,
      a: DrawState, b: DrawState, descentA: int, descentB: int)
    requires span.view.Some?
    ensures var first := Draw(span, host, a.start, a.end, a.x, a.top, a.y, a.bottom, descentA);
      var second := Draw(first.span, host, b.start, b.end, b.x, b.top, b.y, b.bottom, descentB);
      && !second.addedPlayer
      && second.span.player.value.data == first.span.player.value.data
      && second.span.player.value.params.leftMargin == b.x
  {
  }

  /** `start`: a no-op without a player. */
  function Start(span: VideoSpan): (r: VideoSpan)
    ensures span.player.None? ==> r == span
    ensures span.player.Some? ==> IsRunning(r)
    ensures span.player.Some? ==> r.player == Some(span.player.value.(playing := true))
    ensures r.(player := None) == span.(player := None)
  {
    if span.player.Some? then span.(player := Some(span.player.value.(playing := true))) else span
  }

  /** `stop`: pauses the player; a no-op without one. */
  function Stop(span: VideoSpan): (r: VideoSpan)
    ensures span.player.None? ==> r == span
    ensures !IsRunning(r)
    ensures span.player.Some? ==> r.player == Some(span.player.value.(playing := false))
    ensures r.(player := None) == span.(player := None)
  {
    if span.player.Some? then span.(player := Some(span.player.value.(playing := false))) else span
  }

  /** `isRunning`: false without a player, otherwise whether it plays. */
  function IsRunning(span: VideoSpan): (r: bool)
    ensures span.player.None? ==> !r
    ensures span.player.Some? ==> (r <==> span.player.value.playing)
  {
    span.player.Some? && span.player.value.playing
  }

  /** Start and stop change only the playing flag: the span keeps its player. */
  lemma StartStopKeepPlayer(span: VideoSpan)
    ensures Start(span).player.Some? <==> span.player.Some?
    ensures Stop(span).player.Some? <==> span.player.Some?
    ensures span.player.Some? ==> Stop(Start(span)).player.value == span.player.value.(playing := false)
    ensures span.player.None? ==> !IsRunning(Start(span))
  {
  }

  // ---------------------------------------------------------------------
  // Lifecycle callbacks

  /** `onSpannedSetToView`: remembers the host view. */
  function OnSpannedSetToView(span: VideoSpan, view: ViewRef): (r: VideoSpan)
    ensures r.view == Some(view)
    ensures r.(view := span.view) == span
  {
    span.(view := Some(view))
  }

  /** `onAttachedToView`: does nothing. */
  function OnAttachedToView(span: VideoSpan, view: ViewRef): (r: VideoSpan)
    ensures r == span
  {
    span
  }

  /** `onDetachedFromView`: does nothing. */
  function OnDetachedFromView(span: VideoSpan, view: ViewRef): (r: VideoSpan)
    ensures r == span
  {
    span
  }

  // ---------------------------------------------------------------------
  // Parcelling

  function GetType(span: VideoSpan): SpanType {
    TYPE
  }

  function DescribeContents(span: VideoSpan): int {
    0
  }

  /** `writeToParcel`: the type tag, then the URI string. With no URI the
      call fails (`None`) on the null dereference. */
  function WriteToParcel(span: VideoSpan, dest: Parcel): (r: Option<Parcel>)
    ensures r.Some? <==> span.uri.Some?
    ensures r.Some? ==> r.value == dest + [TypeTag(TYPE), Str(span.uri)]
  {
    if span.uri.None? then None
    else Some(WriteString(WriteType(dest, GetType(span)), Some(span.uri.value)))
  }

  /** `readFromParcel`: reads one string as the URI; a null string fails
      in `Uri.parse`. */
  function ReadFromParcel(span: VideoSpan, src: Parcel, pos: nat): (r: Result<Read<VideoSpan>, ReadError>)
    ensures r.Success? <==> ReadString(src, pos).Success? && ReadString(src, pos).value.value.Some?
    ensures r.Success? ==>
      && r.value.value == span.(uri := ReadString(src, pos).value.value)
      && r.value.next == ReadString(src, pos).value.next
    ensures ReadString(src, pos).Failure? ==> r == Failure(ReadString(src, pos).error)
    ensures ReadString(src, pos).Success? && ReadString(src, pos).value.value.None? ==>
      r == Failure(NullValue)
  {
    var s :- ReadString(src, pos);
    if s.value.None? then Failure(NullValue)
    else Success(Read(span.(uri := s.value), s.next))
  }

  /** Writing a span and reading it back (tag first, then the fields)
      restores its URI, whatever was in the parcel before. */
  lemma {:induction false} ParcelRoundTrip(span: VideoSpan, dest: Parcel, target: VideoSpan)
    requires span.uri.Some?
    ensures var p := WriteToParcel(span, dest).value;
      && ReadType(p, |dest|) == Success(Read(TYPE, |dest| + 1))
      && ReadFromParcel(target, p, |dest| + 1) == Success(Read(target.(uri := span.uri), |p|))
  {
    var p := WriteToParcel(span, dest).value;
    assert p[|dest|] == TypeTag(TYPE);
    assert p[|dest| + 1] == Str(span.uri);
  }
}

=== FILE: views.dfy ===
/** The host view a span is set to or attached to, by identity only:
    spans never look inside it. */
module Views {

  datatype ViewRef = ViewRef(id: nat)
}

=== FILE: wrappers.dfy ===
/** Null and exceptions. A Java reference that may be null is an `Option`;
    a call that may throw is a `Result` whose `Failure` names the exception.
    Both support `:-`, which stops at the first null or exception. */
module Wrappers {

  datatype Option<+T> = None | Some(value: T) {

    /** A null reference ends the computation. */
    predicate IsFailure() {
      None?
    }

    function PropagateFailure<U>(): Option<U>
      requires None?
    {
      None
    }

    /** The referenced value, once it is known not to be null. */
    function Extract(): T
      requires Some?
    {
      value
    }
  }

  datatype Result<+R, +E> = Success(value: R) | Failure(error: E) {

    /** A thrown exception ends the computation. */
    predicate IsFailure() {
      Failure?
    }

    function PropagateFailure<U>(): Result<U, E>
      requires Failure?
    {
      Failure(error)
    }

    /** The value returned when nothing was thrown. */
    function Extract(): R
      requires Success?
    {
      value
    }
  }
}

=== FILE: youtube_pattern.dfy ===
/** The YouTube link pattern of `EmbedUtils.getYoutubeVideoId`, compiled
    case-insensitively and run with `Matcher.find`:

      (?:youtube(?:-nocookie)?\.com/(?:[^/\n\s]+/\S+/|(?:v|e(?:mbed)?)/|\S*?[?&]v=)|youtu\.be/)([a-zA-Z0-9_-]{11})

    `MatchAt` states what it means for the pattern to match (no search
    order); `Find` searches the way a backtracking matcher does (leftmost
    start, then alternatives and quantifiers in priority order). `Find` is
    proved sound and complete with respect to `MatchAt`. */
module YouTubePattern {
  import opened Wrappers

  /** Length of the captured video id. */
  const ID_LENGTH: nat := 11

  /** `[a-zA-Z0-9_-]` */
  predicate IsIdChar(c: char) {
    ('a' <= c <= 'z') || ('A' <= c <= 'Z') || ('0' <= c <= '9') || c == '_' || c == '-'
  }

  /** Java's `\s`: space, tab, newline, vertical tab, form feed, carriage return. */
  predicate IsSpace(c: char) {
    c == ' ' || c == '\t' || c == '\n' || c as int == 0x0B || c as int == 0x0C || c == '\r'
  }

  /** ASCII-only folding: CASE_INSENSITIVE without UNICODE_CASE. */
  function Lower(c: char): char {
    if 'A' <= c <= 'Z' then (c as int + 32) as char else c
  }

  /** The lower-case literal `lit` matches `s` case-insensitively at `i`. */
  predicate CiAt(s: string, i: nat, lit: string) {
    i + |lit| <= |s| && forall j :: 0 <= j < |lit| ==> Lower(s[i + j]) == lit[j]
  }

  /** The capture group `([a-zA-Z0-9_-]{11})` matches at `g`. */
  predicate IdAt(s: string, g: nat) {
    g + ID_LENGTH <= |s| && forall j :: g <= j < g + ID_LENGTH ==> IsIdChar(s[j])
  }

  predicate NoSpace(s: string, a: nat, b: nat)
    requires b <= |s|
  {
    forall j :: a <= j < b ==> !IsSpace(s[j])
  }

  predicate NoSlashNoSpace(s: string, a: nat, b: nat)
    requires b <= |s|
  {
    forall j :: a <= j < b ==> s[j] != '/' && !IsSpace(s[j])
  }

  // ---------------------------------------------------------------------
  // Declarative meaning of the pattern

  /** `[^/\n\s]+/\S+/` spans `[p, g)`, its first `/` at `a`. */
  predicate SlashSplit(s: string, p: nat, a: nat, g: nat) {
    && p < a && a + 2 < g <= |s|
    && NoSlashNoSpace(s, p, a) && s[a] == '/'
    && NoSpace(s, a + 1, g - 1) && s[g - 1] == '/'
  }

  /** `\S*?[?&]v=` spans `[p, g)`. */
  predicate QueryShape(s: string, p: nat, g: nat) {
    && p + 3 <= g <= |s|
    && NoSpace(s, p, g - 3)
    && (s[g - 3] == '?' || s[g - 3] == '&')
    && CiAt(s, g - 2, "v=")
  }

  /** The inner alternation after `.com/` spans `[p, g)`. */
  ghost predicate InnerMatch(s: string, p: nat, g: nat) {
    || (exists a :: SlashSplit(s, p, a, g))
    || (g == p + 2 && (CiAt(s, p, "v/") || CiAt(s, p, "e/")))
    || (g == p + 6 && CiAt(s, p, "embed/"))
    || QueryShape(s, p, g)
  }

  /** Everything before the capture group spans `[j, g)`. */
  ghost predicate PrefixMatch(s: string, j: nat, g: nat) {
    || (CiAt(s, j, "youtu.be/") && g == j + 9)
    || (CiAt(s, j, "youtube") && CiAt(s, j + 7, ".com/") && InnerMatch(s, j + 12, g))
    || (CiAt(s, j, "youtube") && CiAt(s, j + 7, "-nocookie.com/") && InnerMatch(s, j + 21, g))
  }

  /** The whole pattern matches starting at `j`, with the group at `g`. */
  ghost predicate MatchAt(s: string, j: nat, g: nat) {
    PrefixMatch(s, j, g) && IdAt(s, g)
  }

  ghost predicate NoMatchAt(s: string, j: nat) {
    forall g :: !MatchAt(s, j, g)
  }

  ghost predicate HasMatch(s: string) {
    exists j, g :: MatchAt(s, j, g)
  }

  // ---------------------------------------------------------------------
  // The backtracking search

  /** End of the `[^/\s]*` run starting at `p`: the first `/` or space. */
  function RunEnd(s: string, p: nat): (a: nat)
    requires p <= |s|
    decreases |s| - p
    ensures p <= a <= |s| && NoSlashNoSpace(s, p, a)
    ensures a < |s| ==> s[a] == '/' || IsSpace(s[a])
    ensures forall a' :: p <= a' < |s| && s[a'] == '/' && NoSlashNoSpace(s, p, a') ==> a' == a
  {
    if p == |s| || s[p] == '/' || IsSpace(s[p]) then p else RunEnd(s, p + 1)
  }

  /** End of the `\S*` run starting at `q`: the first space. */
  function WordEnd(s: string, q: nat): (e: nat)
    requires q <= |s|
    decreases |s| - q
    ensures q <= e <= |s| && NoSpace(s, q, e)
    ensures e < |s| ==> IsSpace(s[e])
    ensures forall b :: q <= b < |s| && !IsSpace(s[b]) && NoSpace(s, q, b) ==> b < e
  {
    if q == |s| || IsSpace(s[q]) then q else WordEnd(s, q + 1)
  }

  /** Greedy `\S+/` backing off: the largest `b` in `[lo, hi)` with a `/` at
      `b` followed by an id; yields the group start `b + 1`. */
  function LastSlashBeforeId(s: string, lo: nat, hi: nat): (r: Option<nat>)
    requires hi <= |s|
    decreases hi
    ensures r.Some? ==> lo < r.value <= hi && s[r.value - 1] == '/' && IdAt(s, r.value)
    ensures r.Some? ==> forall b :: r.value <= b < hi ==> !(s[b] == '/' && IdAt(s, b + 1))
    ensures r.None? ==> forall b :: lo <= b < hi ==> !(s[b] == '/' && IdAt(s, b + 1))
  {
    if hi <= lo then None
    else if s[hi - 1] == '/' && IdAt(s, hi) then Some(hi)
    else LastSlashBeforeId(s, lo, hi - 1)
  }

  /** First alternative `[^/\n\s]+/\S+/` followed by the group. */
  function TrySlashPath(s: string, p: nat): (r: Option<nat>)
    requires p <= |s|
    ensures r.Some? ==> (exists a :: SlashSplit(s, p, a, r.value)) && IdAt(s, r.value)
    ensures r.None? ==> forall a, g :: !(SlashSplit(s, p, a, g) && IdAt(s, g))
  {
    var a := RunEnd(s, p);
    if a == p || a == |s| || s[a] != '/' then
      None
    else
      var e := WordEnd(s, a + 1);
      var r := LastSlashBeforeId(s, a + 2, e);
      if r.Some? then
        assert SlashSplit(s, p, a, r.value);
        r
      else
        None
  }

  /** Lazy `\S*?[?&]v=` followed by the group, trying `k` = `p`, `p + 1`, … */
  function TryQuery(s: string, p: nat, k: nat): (r: Option<nat>)
    requires p <= k <= |s| && NoSpace(s, p, k)
    decreases |s| - k
    ensures r.Some? ==> QueryShape(s, p, r.value) && IdAt(s, r.value)
    ensures r.None? ==> forall g :: k + 3 <= g ==> !(QueryShape(s, p, g) && IdAt(s, g))
  {
    if k + 3 <= |s| && (s[k] == '?' || s[k] == '&') && CiAt(s, k + 1, "v=") && IdAt(s, k + 3) then
      Some(k + 3)
    else if k < |s| && !IsSpace(s[k]) then
      TryQuery(s, p, k + 1)
    else
      None
  }

  /** The inner alternation, alternatives in the pattern's order. */
  function TryInner(s: string, p: nat): (r: Option<nat>)
    requires p <= |s|
    ensures r.Some? ==> InnerMatch(s, p, r.value) && IdAt(s, r.value)
    ensures r.None? ==> forall g :: !(InnerMatch(s, p, g) && IdAt(s, g))
  {
    var slash := TrySlashPath(s, p);
    if slash.Some? then slash
    else if CiAt(s, p, "v/") && IdAt(s, p + 2) then Some(p + 2)
    else if CiAt(s, p, "embed/") && IdAt(s, p + 6) then Some(p + 6)
    else if CiAt(s, p, "e/") && IdAt(s, p + 2) then Some(p + 2)
    else
      var q := TryQuery(s, p, p);
      assert forall g :: QueryShape(s, p, g) ==> p + 3 <= g;
      q
  }

  /** Character `k` of a literal matched case-insensitively at `i`. */
  lemma CiAtChar(s: string, i: nat, lit: string, k: nat)
    requires k < |lit|
    ensures CiAt(s, i, lit) ==> Lower(s[i + k]) == lit[k]
  {
  }

  /** "youtube" and "youtu.be/" differ at index 5, and after "youtube" the
      two suffixes differ at index 0; so at most one branch can apply. */
  lemma BranchesExclusive(s: string, j: nat)
    ensures CiAt(s, j, "youtube") ==> !CiAt(s, j, "youtu.be/")
    ensures CiAt(s, j + 7, ".com/") ==> !CiAt(s, j + 7, "-nocookie.com/")
  {
    CiAtChar(s, j, "youtube", 5);
    CiAtChar(s, j, "youtu.be/", 5);
    CiAtChar(s, j + 7, ".com/", 0);
    CiAtChar(s, j + 7, "-nocookie.com/", 0);
  }

  /** The pattern tried at start position `j`. */
  function TryAt(s: string, j: nat): (r: Option<nat>)
    ensures r.Some? ==> MatchAt(s, j, r.value)
    ensures r.None? ==> NoMatchAt(s, j)
  {
    BranchesExclusive(s, j);
    if CiAt(s, j, "youtube") then
      if CiAt(s, j + 7, ".com/") then TryInner(s, j + 12)
      else if CiAt(s, j + 7, "-nocookie.com/") then TryInner(s, j + 21)
      else None
    else if CiAt(s, j, "youtu.be/") && IdAt(s, j + 9) then
      Some(j + 9)
    else
      None
  }

  /** A match's group starts after its start and leaves room for the id. */
  lemma MatchBounds(s: string, j: nat, g: nat)
    ensures MatchAt(s, j, g) ==> j < g && g + ID_LENGTH <= |s|
  {
  }

  /** `g` is the group of a match at `k`, the leftmost start at or after `j`. */
  ghost predicate LeftmostFrom(s: string, j: nat, k: nat, g: nat) {
    j <= k && MatchAt(s, k, g) && forall i :: j <= i < k ==> NoMatchAt(s, i)
  }

  /** No match starts at or after `j`. */
  ghost predicate NoMatchFrom(s: string, j: nat) {
    forall i :: j <= i ==> NoMatchAt(s, i)
  }

  /** `Matcher.find` from start position `j`: the group start of the
      leftmost match. */
  function FindFrom(s: string, j: nat): (r: Option<nat>)
    decreases |s| + 1 - j
    ensures r.Some? ==> exists k :: LeftmostFrom(s, j, k, r.value)
    ensures r.None? ==> NoMatchFrom(s, j)
  {
    if j > |s| then
      NoMatchPastEnd(s, j);
      None
    else
      var here := TryAt(s, j);
      if here.Some? then
        MatchHere(s, j, here.value);
        here
      else
        var r := FindFrom(s, j + 1);
        NoMatchHere(s, j, j + 1, r);
        r
  }

  /** A match at `j` is the leftmost one from `j`. */
  lemma MatchHere(s: string, j: nat, g: nat)
    requires MatchAt(s, j, g)
    ensures LeftmostFrom(s, j, j, g)
  {
  }

  /** With no match at `j`, the search from `j` has the result of the one from `j + 1`. */
  lemma NoMatchHere(s: string, j: nat, next: nat, r: Option<nat>)
    requires next == j + 1 && NoMatchAt(s, j)
    requires r.Some? ==> exists k :: LeftmostFrom(s, next, k, r.value)
    requires r.None? ==> NoMatchFrom(s, next)
    ensures r.Some? ==> exists k :: LeftmostFrom(s, j, k, r.value)
    ensures r.None? ==> NoMatchFrom(s, j)
  {
    if r.Some? {
      var k :| LeftmostFrom(s, next, k, r.value);
      assert LeftmostFrom(s, j, k, r.value);
    }
  }

  /** No match can start past the end of the input. */
  lemma NoMatchPastEnd(s: string, j: nat)
    requires j > |s|
    ensures NoMatchFrom(s, j)
  {
    forall i: nat, g: nat | j <= i ensures !MatchAt(s, i, g) {
      MatchBounds(s, i, g);
    }
  }

  /** The group start found by `Matcher.find`, if any. */
  function Find(s: string): (r: Option<nat>)
    ensures r.Some? ==> IdAt(s, r.value) && exists j :: MatchAt(s, j, r.value)
    ensures r.Some? ==> exists k :: LeftmostFrom(s, 0, k, r.value)
    ensures r.None? <==> !HasMatch(s)
  {
    var r := FindFrom(s, 0);
    assert r.Some? ==> exists j :: MatchAt(s, j, r.value) by {
      if r.Some? {
        var k :| LeftmostFrom(s, 0, k, r.value);
        assert MatchAt(s, k, r.value);
      }
    }
    assert r.None? ==> !HasMatch(s) by {
      if r.None? {
        forall j: nat, g: nat ensures !MatchAt(s, j, g) {
          assert NoMatchAt(s, j);
        }
      }
    }
    r
  }
}
